=== FILE: README.md ===
# Collectibles core in Dafny

A model of the two classes at the heart of the Collectibles PHP library:

- `Arrays`, a set of static helpers on nested PHP arrays.
  - Path operations address an element by a needle: a separator-delimited
    string such as `"a.b.c"`, or an explicit list of keys. These are
    `hasKey`, `get`, `set`, `add` and `delete`, built on `getKeyFromNeedle`.
  - Whole-array operations: `flatten`, `count` and `getParentNodesKey`.
  - Two multi-criteria sorts: `sortArraysArrayByKeyAndDirection` and
    `sortObjectsArrayByPropertyAndDirection`, with their comparison closures.
- `Collection`, a keyed store of values. It has an optional allowed type
  and keeps its own size counter.

The model keeps the PHP semantics these operations depend on:

- A PHP array is an insertion-ordered list of (key, value) entries with a
  next free integer index (`Values.PhpArray`).
- Integer-like string keys such as `"0"` or `"-12"` address integer keys
  (`Values.Normalize`).
- `isset` treats a null entry as absent (`Values.Slot`), while
  `array_key_exists` does not (`Values.Lookup`).
- `unset` keeps the next free index.
- `usort` re-indexes the result and `uasort` keeps the keys.
- Both files declare `strict_types`, so passing a non-array where `array` is
  declared, or null to `strtolower`, is a `TypeError`.
- Every exception the core throws is a `Values.Error` case carrying its
  message's data. Operations that can throw return a `Wrappers.Result`.

Modules:

| module | file | content |
|---|---|---|
| `Wrappers` | wrappers.dfy | `Option`, `Result` |
| `PhpStrings` | strings.dfy | `trim`, `explode`/`implode`, ASCII `strtolower`, `strcmp`, integer-key strings |
| `Values` | values.dfy | keys, values, arrays, `$a[$k] = $v`, `$a[] = $v`, `unset` |
| `Needles` | needles.dfy | needles and `getKeyFromNeedle` |
| `Paths`, `PathLemmas` | paths.dfy, path_lemmas.dfy | `hasKey`, `get`, `set`, `add`, `delete` and their properties |
| `Tree` | tree.dfy | `flatten`, `count`, `getParentNodesKey` |
| `Comparators` | comparators.dfy | the comparison closures |
| `StableSort` | stable_sort.dfy | a stable insertion sort standing for PHP's stable `usort`/`uasort` |
| `Sorting`, `SortLemmas` | sorting.dfy, sort_lemmas.dfy | the two sorts and their properties |
| `Collections`, `CollectionLemmas` | collection.dfy, collection_lemmas.dfy | `Collection` and its properties |

Each source function walks one key and re-enters itself with the remaining
needle. The model instead walks the parsed key list with one recursive
function per operation (`Paths.GetPath` and so on). The `...Unfolds` lemmas
show the two take the same step, so the model follows the source's
recursion exactly.

## Model

| member | source | states |
|---|---|---|
| Needles.GetKeyFromNeedle | src/Arrays.php:330-343 | An empty key list, or a string that `trim` reduces to '', fails with "Empty needle", and nothing else does; a list yields its first key and the rest unchanged; a string yields the exploded pieces, which glue back into the needle |
| PhpStrings.Explode | src/Arrays.php:339 | The pieces contain no separator, there is at least one, they implode back into the string, there is exactly one piece iff the separator does not occur, and every piece but the last ends at the leftmost occurrence of the separator in the rest of the string, so overlapping occurrences split left to right |
| PhpStrings.ExplodeCut | src/Arrays.php:339 | When the separator first occurs at position i, `explode` yields the text before it followed by the pieces of what comes after it |
| PhpStrings.ExplodeOverlapping | src/Arrays.php:339 | With the separator "::", the needle "a::x:::b" splits into "a", "x" and ":b", not "a", "x:" and "b" |
| PhpStrings.TrimEmptyIffBlank | src/Arrays.php:335 | `trim($s)` is '' exactly when every character of `$s` is one that `trim` strips |
| Values.NormalizeKeyString | src/Arrays.php:51 | Addressing an array with the printed form of a stored key (as an exploded needle does) reaches that same key; "0" reaches integer key 0 |
| Values.Store | src/Arrays.php:142 | `$haystack[$key] = $value` gives the key that value, changes no other key, keeps an existing key in place and appends a new one |
| Values.StoreWellFormed | src/Arrays.php:142 | Storing keeps keys unique and normalised and integer keys below the next free index, at every level |
| Values.PushAppends | src/Arrays.php:110 | `$a[] = $v` appends the value at the next free index and advances it by one |
| Values.Unset | src/Arrays.php:319 | `unset` removes exactly the entry with that key, keeps the others in order and does not rewind the next free index |
| Values.UnsetRemovesKey | src/Arrays.php:319 | After `unset` the key is absent from a well-formed array |
| Values.UnsetKeepsOthers | src/Arrays.php:319 | `unset` of one key leaves every other key's lookup unchanged |
| Paths.HasPath | src/Arrays.php:41-58 | An empty array holds nothing; a missing or null head key makes the path absent; a further step into a non-array is a TypeError |
| Paths.HasKey | src/Arrays.php:41-58 | An empty haystack answers false before the needle is parsed; otherwise a bad needle fails with "Empty needle" and the only other failure is a TypeError |
| PathLemmas.HasKeyUnfolds | src/Arrays.php:50-57 | One step of `hasKey` equals `hasKey` on the remaining key list in the child array |
| PathLemmas.HasKeyMatchesGet | src/Arrays.php:41-87 | `hasKey` is true iff `get` succeeds; it is false iff `get` throws "Empty haystack" or "Invalid key"; both fail the same way otherwise |
| Paths.GetPath | src/Arrays.php:70-87 | Never returns null; an empty haystack throws "Empty haystack"; a missing or null key throws "Invalid key" naming a key on the path; a single key returns its entry |
| Paths.Get | src/Arrays.php:70-87 | "Empty haystack" takes precedence over "Empty needle"; a returned value is never null |
| PathLemmas.GetUnfolds | src/Arrays.php:78-86 | One step of `get` equals `get` on the remaining key list in the child array |
| Paths.ChildForWrite | src/Arrays.php:145-147 | A missing or null intermediate becomes `[]`; any other non-array intermediate is a TypeError |
| Paths.SetPath | src/Arrays.php:134-150 | A successful set changes only the head key at each level, keeps key order (appending a new key) and leaves the array non-empty; it fails only with a TypeError on a path of two or more keys |
| Paths.Set | src/Arrays.php:134-150 | An empty needle fails even on an empty haystack, and it is the only "Empty needle" failure |
| PathLemmas.SetUnfolds | src/Arrays.php:140-149 | One step of `set` creates or reuses the child and stores the result of `set` on the remaining key list back at the head key |
| PathLemmas.SetPathThenGetPath | src/Arrays.php:134-150 | After a set, reading the same path returns the value, or "Invalid key" for the last key when the value was null |
| PathLemmas.SetThenGet | src/Arrays.php:134-150 | After a successful `set` of a non-null value, `get` with the same needle returns it and `hasKey` is true |
| PathLemmas.SetPathFailsIffBlocked | src/Arrays.php:145-149 | `set` fails exactly when `get` on the same path fails with a TypeError, that is when a non-array value sits on the path |
| PathLemmas.SetPathFrame | src/Arrays.php:134-150 | A set leaves every path that diverges from its own readable exactly as before, in both directions |
| PathLemmas.SetPathWellFormed | src/Arrays.php:134-150 | `set` keeps a well-formed array well-formed |
| Paths.Accumulate | src/Arrays.php:105-114 | An empty slot gets the value; an array gets the value pushed; any other value `x` becomes `[x, value]` |
| Paths.AddPath | src/Arrays.php:98-123 | A successful add changes only the head key at each level, keeps key order and leaves the array non-empty; it fails only with a TypeError on a path of two or more keys |
| Paths.Add | src/Arrays.php:98-123 | An empty needle fails, and it is the only "Empty needle" failure; the other is a TypeError |
| PathLemmas.AddUnfolds | src/Arrays.php:104-122 | One step of `add` creates or reuses the child and stores the result of `add` on the remaining key list back at the head key |
| PathLemmas.AddPathThenGetPath | src/Arrays.php:98-123 | After an add, the path holds what was there before combined with the value |
| PathLemmas.AddPushes | src/Arrays.php:108-110 | Adding at a path that holds an array appends the value at that array's next free index |
| PathLemmas.AddWraps | src/Arrays.php:111-113 | Adding at a path that holds a non-array `x` leaves the list `[x, value]` |
| PathLemmas.AddPathFailsIffBlocked | src/Arrays.php:118-122 | `add` fails exactly when a non-array value sits on the path |
| PathLemmas.AddPathFrame | src/Arrays.php:98-123 | An add leaves every path that diverges from its own readable exactly as before |
| PathLemmas.AddPathWellFormed | src/Arrays.php:98-123 | `add` keeps a well-formed array well-formed |
| Paths.DeletePath | src/Arrays.php:301-321 | A successful delete returns a non-null value, keeps the next free index, leaves every other top-level key as it was and keeps the key order of intermediate levels |
| PathLemmas.DeletePathFrame | src/Arrays.php:301-321 | A delete leaves every path that diverges from its own readable exactly as before, in both directions: siblings of the removed entry and of every array on the way keep their values |
| Paths.Delete | src/Arrays.php:301-321 | "Empty haystack" takes precedence over "Empty needle"; a deleted value is never null |
| PathLemmas.DeleteUnfolds | src/Arrays.php:310-316 | One step of `delete` stores the child, as updated by `delete` on the remaining key list, back at the head key |
| PathLemmas.DeletePathMatchesGetPath | src/Arrays.php:301-321 | `delete` succeeds exactly when `get` does, returns the value `get` returns and otherwise fails with the same error |
| PathLemmas.DeleteThenGone | src/Arrays.php:318-320 | After a delete the path no longer exists, and its parent array is still there |
| PathLemmas.DeleteCount | src/Arrays.php:301-321 | The leaves left behind plus the leaves of the removed value are the leaves before |
| PathLemmas.DeletePathWellFormed | src/Arrays.php:301-321 | `delete` keeps a well-formed array well-formed |
| Tree.Flatten | src/Arrays.php:23-31 | Every value in the flattened list is a non-array |
| Tree.FlattenEntriesConcat | src/Arrays.php:23-31 | Flattening distributes over concatenation of entries, so order is preserved |
| Tree.Count | src/Arrays.php:278-289 | The loop's count is the number of leaves `flatten` returns |
| Tree.ParentNodesKey | src/Arrays.php:350-359 | Every entry of the result holds an array |
| Tree.ParentNodesKeyHasNoLeaves | src/Arrays.php:350-359 | The result has no leaves: flattening it gives the empty list |
| Tree.ParentNodesKeyLookup | src/Arrays.php:350-359 | A key is in the result iff it holds an array in the input, and then it maps to that array's own parent-node skeleton; result keys keep the input's order |
| Tree.ParentNodesKeyIdempotent | src/Arrays.php:350-359 | Applying `getParentNodesKey` twice gives what applying it once does |
| Sorting.CheckPair | src/Arrays.php:172-173 | A pair is accepted iff it is an array of exactly two elements whose element 0 is a string and element 1 a string that lower-cases to "asc" or "desc"; a non-string element 1 is a TypeError; the criterion read is that pair |
| Sorting.ObjectPair | src/Arrays.php:231-238 | A pair is accepted iff it is valid as above and names a property of the first element |
| Sorting.ValidateAll | src/Arrays.php:171-175 | Validation succeeds iff every pair is valid, yielding their criteria in order; otherwise the error is that of the first invalid pair |
| Sorting.ArraySort | src/Arrays.php:162-179 | An empty array fails with "Empty array to sort", and nothing else does; it succeeds iff the pairs are valid and, when two elements are compared, all are arrays; the result is the stable sort by the criteria, re-indexed or keeping keys |
| Sorting.ObjectSort | src/Arrays.php:218-242 | The checks run in order: empty array, first element not an object, then each pair; a missing property is one the first element lacks; on success the result is the stable sort by the criteria |
| Comparators.CompareField | src/Arrays.php:196-200 | The comparison of one field lies in -1..1 and is 0 exactly for equal values of one kind |
| Comparators.CompareAntisymmetric | src/Arrays.php:186-204 | Swapping the two elements negates the comparison |
| Comparators.CompareTransitive | src/Arrays.php:186-270 | The comparison is transitive, so with antisymmetry it is a total preorder a sort can rely on |
| Comparators.CompareEquivalence | src/Arrays.php:186-204 | Comparing equal is reflexive, symmetric and transitive |
| Comparators.CompareZeroIffTied | src/Arrays.php:191-201 | Two comparable elements compare equal iff they agree on every criterion field |
| StableSort.SortEntriesSorted | src/Arrays.php:176-178 | The sorted entries are in non-decreasing order under the comparator |
| StableSort.SortEntries | src/Arrays.php:176-178 | Sorting permutes the entries |
| StableSort.SortEntriesStable | src/Arrays.php:176-178 | Entries that compare equal keep their original relative order |
| StableSort.StableSortIsUnique | src/Arrays.php:176-178 | Any ordering that is sorted and keeps every tie class in input order is exactly the sorted result |
| SortLemmas.SortRecordsPermutes | src/Arrays.php:176-178 | The result holds the same values; with kept keys the same entries and next free index; otherwise keys 0, 1, 2, ... |
| SortLemmas.SortRecordsSorted | src/Arrays.php:176-178 | The result is ordered by the comparator |
| SortLemmas.SortRecordsStable | src/Arrays.php:176-178 | Among elements tied under the comparator, input order is kept, keys included when they are kept |
| SortLemmas.SortRecordsKeepsEqualFieldsInOrder | src/Arrays.php:176-178 | Elements with equal values in every criterion field stay in input order |
| SortLemmas.SortRecordsIsTheStableSort | src/Arrays.php:239-241 | The key-keeping sort returns the unique stable sorted arrangement |
| SortLemmas.SortTwo | src/Arrays.php:176-178 | Two elements are swapped iff the first compares greater |
| SortLemmas.AsWrittenAgreesUnlessMixedCaseAsc | src/Arrays.php:197-200 | For a validated direction, the comparators' reading matches the case-insensitive one except for mixed-case spellings of "asc" |
| SortLemmas.AsWrittenSortsAsIntended | src/Arrays.php:262-265 | When every ascending direction is spelled "asc" or "ASC", both readings give the same orders |
| SortLemmas.MixedCaseAscSortsDescending | src/Arrays.php:262-265 | Direction "Asc" passes validation but sorts descending |
| SortLemmas.MixedCaseAscSortObjects | src/Arrays.php:218-242 | Through `sortObjectsArrayByPropertyAndDirection` itself: with the pair ["n", "Asc"], objects with `n` = 2 and 1 come back as 2, 1, and the corrected sort returns 1, 2 |
| Collections.New | src/Collection.php:37-45 | A new collection keeps the given type, starts from the empty array (no entries, next free index 0) and has size 0 |
| Collections.Exists | src/Collection.php:47-49 | A name exists iff its key is present, null values included |
| Collections.Get | src/Collection.php:51-57 | `get` returns the stored value, null included, exactly when the name exists, and otherwise throws naming it |
| Collections.GetAll | src/Collection.php:59-63 | Yields every key with its value, in insertion order |
| CollectionLemmas.GetAllScalarSelects | src/Collection.php:65-71 | Yields exactly the bool, int and string entries, in insertion order |
| CollectionLemmas.GetAllTypedSelects | src/Collection.php:73-79 | Yields exactly the entries whose value is an instance of the type, in insertion order |
| Collections.IsTypedCollection | src/Collection.php:85-87 | As written, the answer is true exactly for untyped collections |
| Collections.IsTypedCollectionIntended | src/Collection.php:85-87 | Corrected: true exactly when the type is set and truthy |
| CollectionLemmas.IsTypedCollectionIsInverted | src/Collection.php:85-87 | A collection that rejects non-instances reports that it is not typed, and an untyped one that it is |
| CollectionLemmas.IsTypedCollectionIntendedIffRejects | src/Collection.php:85-96 | Corrected `isTypedCollection` holds iff `set` rejects some value; an untyped collection accepts every value |
| Collections.SetBy | src/Collection.php:89-117 | A typed collection rejects non-instances with the type in the message, counts every accepted value and changes only the value's key; an untyped one stores at the name, or at the current size and counts it; in both, a key already present keeps its place in the order and a new key is appended |
| CollectionLemmas.SetAcceptsIffInstance | src/Collection.php:89-117 | `set` succeeds iff the collection is untyped or the value is an instance of its type; the size grows by one except for a named untyped set |
| CollectionLemmas.SetThenGet | src/Collection.php:89-117 | After a named `set` the name exists and `get` returns the value; in a typed collection whose name was taken, the pair `[old, new]` whatever the old value was; other names read as before |
| CollectionLemmas.SetIntendedThenGet | src/Collection.php:89-117 | Corrected `set`: the same, except that a taken name holding an array gets the value appended |
| CollectionLemmas.SetEachBuildsList | src/Collection.php:112-121 | Unnamed sets into an untyped collection build the list of the values, and `getSize` is their number |
| CollectionLemmas.NewCountsObjects | src/Collection.php:38-45 | A new collection satisfies the counting invariant |
| CollectionLemmas.SetCountsObjects | src/Collection.php:93-111 | `set` keeps the invariant that a typed collection's size is the number of objects stored, all instances of its type |
| CollectionLemmas.SetIntendedCountsObjects | src/Collection.php:93-111 | Corrected `set` keeps the same invariant, and keeps the stored arrays well-formed |
| Collections.WrapWith | src/Collection.php:98-105 | As written, an occupied typed key always becomes the pair `[old, new]` |
| CollectionLemmas.TypedSetNestsRepeatedKeys | src/Collection.php:97-105 | As written, three objects of one class nest as `[[a, a], a]` |
| CollectionLemmas.TypedSetListsRepeatedKeys | src/Collection.php:97-105 | Corrected, the same three sets build the list `[a, a, a]` |

## Left out

- Floats are not modelled, in values or in the comparators' `is_float` branch.
- Mixed-kind comparisons are left out: sorting elements whose criterion fields are not both integers or both strings. PHP juggles such pairs with `<=>` or `strcmp`. `Sorting.SortArrays`, `Sorting.SortObjects` and their `...Intended` variants require the elements to be in this domain, stated as `ArrayDomain`/`ObjectDomain`. Outside it `Comparators.CompareField` orders by kind only, to stay total.
- Sorting.ObjectSort: an element after the first that is not an object, or lacks a property, is excluded by `ObjectDomain`. The source does not check these (it would read null or fail inside the closure).
- Comparators.CompareField: `strcmp` is modelled by its sign only (-1, 0, 1), which is all PHP 8.2 and later return; older versions returned any magnitude.
- PHP's sort is modelled by a stable insertion sort. PHP 8's sort is stable, and `StableSort.StableSortIsUnique` shows any stable sort gives the same result.
- Integers are unbounded. The 64-bit limits only decide which strings are integer keys. Overflow of the next free index or of `count` is not modelled.
- Negative integer keys follow the pre-8.3 rule: the next free index is only raised by keys at or above it, and starts at 0.
- Objects carry the set of class and interface names they are instances of. PHP's class table, `get_class` and autoloading are not modelled. A property is a name in the object's field map.
- `getAll`, `getAllScalar` and `getAllTyped` return generators; the model returns the sequence they would yield, so laziness is not modelled.
- `Collection` implements an `IO` interface (IO.php), which is not part of this model.
- The separator must be non-empty (`|sep| > 0`). PHP's `explode` throws a `ValueError` for an empty separator; that error path is not modelled.
- Paths.HasPath: a non-array on the path is the `TypeError` the code raises.
- tests/CollectionTest.php calls `has`, `add`, `delete`, `getAllObjects`, `getAsCollection`, `mergeInto` and `mergeIntoAt`, which src/Collection.php does not define. The model follows the file.
- Paths.DeletePath: its own contract frames only the other keys of the top level. That every path branching off the deleted one reads the same at every depth is stated by `PathLemmas.DeletePathFrame`.
- Needles.Needle: a key-list needle holds integer and string keys only. PHP also accepts other list elements as keys: `null` becomes `""`, `true` becomes 1, a float is truncated, and an array is an illegal offset. These conversions are not modelled.
- Collections.New: the tests call `new Collection()` without an argument, but the constructor has no default. Only the constructor's declared behaviour is modelled.

## Findings

| source | as written | input that shows it | evidently intended | confidence | as-written member | corrected member |
|---|---|---|---|---|---|---|
| src/Collection.php:85-87 | `isTypedCollection` returns `empty($this->collectionType)`, true for an untyped collection | `new Collection('Foo')` rejects `1` in `set` yet reports false; tests/CollectionTest.php:137-150 expects true | return true exactly when a type is set | not executed | CollectionLemmas.IsTypedCollectionIsInverted | CollectionLemmas.IsTypedCollectionIntendedIffRejects |
| src/Collection.php:98-105 | the array test is applied to the key `$name ?? get_class($value)`, a string, so it never holds and an occupied key is always wrapped | three `set`s of one object `a` of class `T` into a collection of `T` leave `[[a, a], a]` under "T" | append to an existing array, as `Arrays::add` does, giving `[a, a, a]` | not executed | CollectionLemmas.TypedSetNestsRepeatedKeys | CollectionLemmas.TypedSetListsRepeatedKeys |
| src/Arrays.php:262-265 | the comparators test `'asc'` or `'ASC'` exactly, but validation accepts any capitalisation | direction `"Asc"` is accepted, yet elements with field values 2 then 1 stay in that (descending) order | every capitalisation of "asc" sorts ascending, as validation implies | not executed | SortLemmas.MixedCaseAscSortObjects | SortLemmas.AsWrittenAgreesUnlessMixedCaseAsc |

`Sorting.SortArrays`, `Sorting.SortObjects`, `Collections.Set` and
`Collections.IsTypedCollection` model the source as written. The corrected
definitions carry the suffix `Intended`: `Sorting.SortArraysIntended`,
`Sorting.SortObjectsIntended`, `Collections.SetIntended` and
`Collections.IsTypedCollectionIntended`.

=== FILE: collection.dfy ===
/** The class `Collection`: a PHP array of values with an optional
    allowed type and a separately kept size counter.

    A collection is typed when its type is truthy (neither null, "" nor
    "0"). A typed collection accepts only instances of its type, keys each
    value by the given name or else by the value's class name, and counts
    every accepted value; an untyped one stores at the given name, or else
    at the current size, which only then is incremented. */
module Collections {
  import opened Wrappers
  import opened Values
  import opened Seqs
  import opened Tree
  import Paths

  datatype Collection = Collection(collectionType: Option<string>, values: PhpArray, collectionSize: int)

  /** `new Collection($collectionType)`. */
  function New(collectionType: Option<string>): (c: Collection)
    ensures c.collectionType == collectionType && c.values == EmptyArray && c.collectionSize == 0
  {
    Collection(collectionType, EmptyArray, 0)
  }

  /** `if ($this->collectionType)`: a `?string` is truthy unless it is null,
      "" or "0". */
  predicate HasType(c: Collection) {
    c.collectionType.Some? && c.collectionType.value != "" && c.collectionType.value != "0"
  }

  /* ------------------------------------------------------------- reading */

  /** `exists`: `array_key_exists`, so a name holding null exists. */
  function Exists(c: Collection, name: string): (r: bool)
    ensures r <==> Lookup(c.values, Normalize(SK(name))).Some?
  {
    Normalize(SK(name)) in KeysOf(c.values.entries)
  }

  /** `get`: the value stored under the name, null included. */
  function Get(c: Collection, name: string): (r: Result<Value, Error>)
    ensures r.Success? <==> Exists(c, name)
    ensures r.Success? ==> Lookup(c.values, Normalize(SK(name))) == Some(r.value)
    ensures r.Failure? ==> r.error == CollectionKeyNotFound(name)
  {
    match Lookup(c.values, Normalize(SK(name)))
    case Some(v) => Success(v)
    case None => Failure(CollectionKeyNotFound(name))
  }

  /** `getAll`: every (key, value) pair in insertion order. */
  function GetAll(c: Collection): (r: seq<Entry>)
    ensures KeysOf(r) == KeysOf(c.values.entries) && ValuesOf(r) == ValuesOf(c.values.entries)
  {
    c.values.entries
  }

  /** `getAllScalar`: the pairs whose value is a bool, int or string. */
  function GetAllScalar(c: Collection): (r: seq<Entry>)
    ensures forall i :: 0 <= i < |r| ==> IsScalar(r[i].val)
  {
    Filter(c.values.entries, (e: Entry) => IsScalar(e.val))
  }

  /** `getAllTyped`: the pairs whose value is an instance of `className`. */
  function GetAllTyped(c: Collection, className: string): (r: seq<Entry>)
    ensures forall i :: 0 <= i < |r| ==> InstanceOf(r[i].val, className)
  {
    Filter(c.values.entries, (e: Entry) => InstanceOf(e.val, className))
  }

  function GetSize(c: Collection): int {
    c.collectionSize
  }

  function ToArray(c: Collection): PhpArray {
    c.values
  }

  /** `isTypedCollection`: `empty($this->collectionType)`, which is true
      exactly for the untyped collections. */
  function IsTypedCollection(c: Collection): (r: bool)
    ensures r <==> !HasType(c)
  {
    c.collectionType.None? || c.collectionType.value == "" || c.collectionType.value == "0"
  }

  /** `isTypedCollection` as its name promises: true for the typed
      collections. */
  function IsTypedCollectionIntended(c: Collection): (r: bool)
    ensures r <==> HasType(c)
  {
    !IsTypedCollection(c)
  }

  /* ------------------------------------------------------------- writing */

  /** The key a typed `set` uses: `$name ?? get_class($value)`. */
  function TypedKey(v: Value, name: Option<string>): Key
    requires v.Obj?
  {
    Normalize(SK(if name.Some? then name.value else v.cls))
  }

  /** What the typed `set` leaves at an occupied key as written: the test
      `is_array($name ?? get_class($value))` looks at the key, a string,
      so it never holds and the old value is always wrapped with the new. */
  function WrapWith(prior: Option<Value>, v: Value): (r: Value)
    ensures prior.None? ==> r == v
    ensures prior.Some? ==> r == Arr(ListOf([prior.value, v]))
  {
    if prior.None? then v else Arr(ListOf([prior.value, v]))
  }

  /** `set`, with `combine` deciding what an occupied typed key receives. */
  function SetBy(c: Collection, v: Value, name: Option<string>, combine: (Option<Value>, Value) -> Value)
    : (r: Result<Collection, Error>)
    ensures r.Failure? <==> HasType(c) && !InstanceOf(v, c.collectionType.value)
    ensures r.Failure? ==> r.error == TypeMismatch(c.collectionType.value)
    ensures r.Success? ==> r.value.collectionType == c.collectionType
    ensures r.Success? && HasType(c) ==>
      var k := TypedKey(v, name);
      && r.value.collectionSize == c.collectionSize + 1
      && Lookup(r.value.values, k) == Some(combine(Lookup(c.values, k), v))
      && KeysOf(r.value.values.entries) == KeysAfterStore(KeysOf(c.values.entries), k)
      && forall k' :: k' != k ==> Lookup(r.value.values, k') == Lookup(c.values, k')
    ensures r.Success? && !HasType(c) ==>
      var k := if name.Some? then Normalize(SK(name.value)) else IK(c.collectionSize);
      && r.value.collectionSize == c.collectionSize + (if name.Some? then 0 else 1)
      && Lookup(r.value.values, k) == Some(v)
      && KeysOf(r.value.values.entries) == KeysAfterStore(KeysOf(c.values.entries), k)
      && forall k' :: k' != k ==> Lookup(r.value.values, k') == Lookup(c.values, k')
  {
    if HasType(c) then
      if !InstanceOf(v, c.collectionType.value) then Failure(TypeMismatch(c.collectionType.value))
      else
        var k := TypedKey(v, name);
        Success(c.(values := Store(c.values, k, combine(Lookup(c.values, k), v)),
                   collectionSize := c.collectionSize + 1))
    else if name.Some? then
      Success(c.(values := Store(c.values, Normalize(SK(name.value)), v)))
    else
      Success(c.(values := Store(c.values, IK(c.collectionSize), v), collectionSize := c.collectionSize + 1))
  }

  /** `Collection::set`. */
  function Set(c: Collection, v: Value, name: Option<string>): Result<Collection, Error> {
    SetBy(c, v, name, WrapWith)
  }

  /** `Collection::set` with the evidently intended array test: an occupied
      key that already holds an array gets the value appended, as
      `Arrays::add` does, instead of being wrapped in a new pair. */
  function SetIntended(c: Collection, v: Value, name: Option<string>): Result<Collection, Error> {
    SetBy(c, v, name, Paths.Accumulate)
  }
}

=== FILE: collection_lemmas.dfy ===
/** What `Collection` promises across calls, and the two places where the
    class does not do what its names say. */
module CollectionLemmas {
  import opened Wrappers
  import opened Values
  import opened Seqs
  import opened Tree
  import Paths
  import opened Collections

  /* ------------------------------------------------------- set, then get */

  /** The key `set` stores under. */
  function SetKey(c: Collection, v: Value, name: Option<string>): Key
    requires HasType(c) ==> v.Obj?
  {
    if HasType(c) then TypedKey(v, name)
    else if name.Some? then Normalize(SK(name.value)) else IK(c.collectionSize)
  }

  /** A named `set` is found by `get` under that name: the value itself,
      or, in a typed collection whose name was taken, the pair of the old
      and the new value, whatever the old value was. Every other name reads
      as before. */
  lemma SetThenGet(c: Collection, v: Value, name: string, other: string)
    requires Set(c, v, Some(name)).Success?
    ensures var r := Set(c, v, Some(name)).value;
      && Exists(r, name)
      && Get(r, name) == Success(if HasType(c) then WrapWith(Lookup(c.values, Normalize(SK(name))), v) else v)
      && (Normalize(SK(other)) != Normalize(SK(name)) ==> Get(r, other) == Get(c, other))
  {
  }

  /** The same for the intended `set`, where a name that holds an array
      gets the value appended instead. */
  lemma SetIntendedThenGet(c: Collection, v: Value, name: string, other: string)
    requires SetIntended(c, v, Some(name)).Success?
    ensures var r := SetIntended(c, v, Some(name)).value;
      && Exists(r, name)
      && Get(r, name) == Success(if HasType(c) then Paths.Accumulate(Lookup(c.values, Normalize(SK(name))), v) else v)
      && (Normalize(SK(other)) != Normalize(SK(name)) ==> Get(r, other) == Get(c, other))
  {
  }

  /** An untyped collection accepts everything; a typed one rejects what is
      not an instance of its type, and the size counts only accepted
      values. */
  lemma SetAcceptsIffInstance(c: Collection, v: Value, name: Option<string>)
    ensures Set(c, v, name).Success? <==> !HasType(c) || InstanceOf(v, c.collectionType.value)
    ensures Set(c, v, name).Success? ==>
      Set(c, v, name).value.collectionSize == c.collectionSize + (if !HasType(c) && name.Some? then 0 else 1)
  {
  }

  /* ---------------------------------------------- the untyped list case */

  /** `set($v)` for each of `vs` in turn, with no names. */
  function SetEach(c: Collection, vs: seq<Value>): (r: Collection)
    requires !HasType(c)
    ensures r.collectionType == c.collectionType
    decreases |vs|
  {
    if vs == [] then c
    else Set(SetEach(c, vs[..|vs| - 1]), vs[|vs| - 1], None).value
  }

  /** Unnamed values set into a new untyped collection form the list of
      those values, and the size is their number. */
  lemma {:induction false} SetEachBuildsList(t: Option<string>, vs: seq<Value>)
    requires !HasType(New(t))
    ensures ToArray(SetEach(New(t), vs)) == ListOf(vs)
    ensures GetSize(SetEach(New(t), vs)) == |vs|
    decreases |vs|
  {
    if vs != [] {
      var init := vs[..|vs| - 1];
      SetEachBuildsList(t, init);
      SetEachStep(SetEach(New(t), init), init, vs[|vs| - 1]);
      SnocSplit(vs);
    }
  }

  /** The step of `SetEachBuildsList`: one more unnamed `set` on an untyped
      collection holding the list of the earlier values. */
  lemma SetEachStep(c: Collection, init: seq<Value>, last: Value)
    requires !HasType(c) && c.values == ListOf(init) && c.collectionSize == |init|
    ensures Set(c, last, None).Success?
    ensures Set(c, last, None).value.values == ListOf(init + [last])
    ensures Set(c, last, None).value.collectionSize == |init| + 1
  {
    SetUnnamedUntyped(c, last);
    PushListOf(init, last);
  }

  /** An unnamed `set` on an untyped collection stores at the current size
      and counts one more. */
  lemma SetUnnamedUntyped(c: Collection, v: Value)
    requires !HasType(c)
    ensures Set(c, v, None)
      == Success(Collection(c.collectionType, Store(c.values, IK(c.collectionSize), v), c.collectionSize + 1))
  {
  }

  /* ------------------------------------------------------------ queries */

  /** `getAllScalar` yields, in insertion order, exactly the scalar pairs. */
  lemma GetAllScalarSelects(c: Collection, e: Entry)
    ensures IsSubsequence(GetAllScalar(c), GetAll(c))
    ensures e in GetAllScalar(c) <==> e in GetAll(c) && IsScalar(e.val)
  {
    FilterIsSubsequence(c.values.entries, (e: Entry) => IsScalar(e.val));
    FilterMembers(c.values.entries, (e: Entry) => IsScalar(e.val), e);
  }

  /** `getAllTyped` yields, in insertion order, exactly the pairs holding an
      instance of the class. */
  lemma GetAllTypedSelects(c: Collection, className: string, e: Entry)
    ensures IsSubsequence(GetAllTyped(c, className), GetAll(c))
    ensures e in GetAllTyped(c, className) <==> e in GetAll(c) && InstanceOf(e.val, className)
  {
    FilterIsSubsequence(c.values.entries, (e: Entry) => InstanceOf(e.val, className));
    FilterMembers(c.values.entries, (e: Entry) => InstanceOf(e.val, className), e);
  }

  /* ------------------------------------------------ the typed size count */

  /** In a typed collection every object stored, at any depth of the lists
      that repeated keys build, is an instance of the type, and the size
      is the number of them, which is what `Arrays::count` returns for
      `toArray()`. */
  predicate SizeCountsObjects(c: Collection) {
    HasType(c) ==>
      && |Flatten(c.values)| == c.collectionSize
      && forall x :: x in Flatten(c.values) ==> InstanceOf(x, c.collectionType.value)
  }

  lemma NewCountsObjects(t: Option<string>)
    ensures SizeCountsObjects(New(t)) && WellFormed(New(t).values)
  {
  }

  /** The leaves under a stored value are leaves of the array. */
  lemma FlattenLookup(a: PhpArray, k: Key, x: Value)
    requires Lookup(a, k).Some? && x in FlattenValue(Lookup(a, k).value)
    ensures x in Flatten(a)
  {
    FlattenAt(a.entries, Find(a.entries, k));
  }

  /** Storing `w` at `k` trades the leaves of the old value for those of `w`. */
  lemma FlattenStore(a: PhpArray, k: Key, w: Value)
    ensures Lookup(a, k).Some? ==>
      |Flatten(Store(a, k, w))| + |FlattenValue(Lookup(a, k).value)| == |Flatten(a)| + |FlattenValue(w)|
    ensures Lookup(a, k).None? ==> |Flatten(Store(a, k, w))| == |Flatten(a)| + |FlattenValue(w)|
    ensures forall x :: x in Flatten(Store(a, k, w)) ==> x in Flatten(a) || x in FlattenValue(w)
  {
    var es := a.entries;
    var i := Find(es, k);
    if i >= 0 {
      StoreExisting(a, k, w);
      FlattenReplace(es, i, Entry(k, w));
      FlattenAt(es, i);
    } else {
      StoreNew(a, k, w);
      FlattenEntriesConcat(es, [Entry(k, w)]);
      FlattenSingle(Entry(k, w));
    }
  }

  lemma FlattenPair(x: Value, v: Value)
    requires !v.Arr?
    ensures FlattenValue(Arr(ListOf([x, v]))) == FlattenValue(x) + [v]
  {
    var es := ListOf([x, v]).entries;
    assert es == [Entry(IK(0), x)] + [Entry(IK(1), v)];
    FlattenEntriesConcat([Entry(IK(0), x)], [Entry(IK(1), v)]);
    FlattenSingle(Entry(IK(0), x));
    FlattenSingle(Entry(IK(1), v));
  }

  /** The typed `set` as written keeps the size equal to the number of
      stored objects: a repeated key nests the old value one level deeper
      in a new pair, which still holds all of its objects. */
  lemma SetCountsObjects(c: Collection, v: Value, name: Option<string>)
    requires SizeCountsObjects(c) && Set(c, v, name).Success?
    ensures SizeCountsObjects(Set(c, v, name).value)
  {
    if HasType(c) {
      var k := TypedKey(v, name);
      var prior := Lookup(c.values, k);
      var w := WrapWith(prior, v);
      assert Set(c, v, name).value.values == Store(c.values, k, w);
      FlattenStore(c.values, k, w);
      if prior.Some? {
        FlattenPair(prior.value, v);
        forall x | x in FlattenValue(prior.value) ensures x in Flatten(c.values) {
          FlattenLookup(c.values, k, x);
        }
      }
    }
  }

  /** `Arrays::add`-style accumulation on a well-formed array: pushing adds
      exactly one leaf and keeps the array well-formed. */
  lemma FlattenPush(a: PhpArray, v: Value)
    requires WellFormed(a) && !v.Arr?
    ensures |Flatten(Push(a, v))| == |Flatten(a)| + 1
    ensures forall x :: x in Flatten(Push(a, v)) ==> x in Flatten(a) || x == v
    ensures WellFormed(Push(a, v))
  {
    assert forall i :: 0 <= i < |a.entries| ==> a.entries[i].key != IK(a.nextFree);
    assert IK(a.nextFree) !in KeysOf(a.entries);
    FlattenStore(a, IK(a.nextFree), v);
    StoreWellFormed(a, IK(a.nextFree), v);
  }

  /** The intended typed `set` keeps the same count on well-formed
      collections: a repeated key that holds a list gets one more element. */
  lemma SetIntendedCountsObjects(c: Collection, v: Value, name: Option<string>)
    requires SizeCountsObjects(c) && WellFormed(c.values) && WellFormedValue(v)
    requires SetIntended(c, v, name).Success?
    ensures SizeCountsObjects(SetIntended(c, v, name).value)
    ensures WellFormed(SetIntended(c, v, name).value.values)
  {

    if HasType(c) {
      var k := TypedKey(v, name);
      var prior := Lookup(c.values, k);
      var w := Paths.Accumulate(prior, v);
      assert SetIntended(c, v, name).value.values == Store(c.values, k, w);
      FlattenStore(c.values, k, w);
      if prior.Some? {
        forall x | x in FlattenValue(prior.value) ensures x in Flatten(c.values) {
          FlattenLookup(c.values, k, x);
        }
        LookupWellFormedValue(c.values, k);
        if prior.value.Arr? {
          FlattenPush(prior.value.a, v);
        } else {
          FlattenPair(prior.value, v);
          ListOfWellFormed([prior.value, v]);
        }
      }
      StoreWellFormed(c.values, k, w);
    } else {
      var k := SetKey(c, v, name);
      assert SetIntended(c, v, name).value.values == Store(c.values, k, v);
      StoreWellFormed(c.values, k, v);
    }
  }

  lemma LookupWellFormedValue(a: PhpArray, k: Key)
    requires WellFormed(a) && Lookup(a, k).Some?
    ensures WellFormedValue(Lookup(a, k).value)
  {
    var i := Find(a.entries, k);
    assert Lookup(a, k).value == a.entries[i].val;
  }

  /* ----------------------------------------------------------- findings */

  /** As written, `isTypedCollection` answers the opposite question: a
      collection of "Foo" says it is not typed while rejecting a non-Foo
      value, and an untyped collection says it is typed. */
  lemma IsTypedCollectionIsInverted()
    ensures !IsTypedCollection(New(Some("Foo")))
    ensures Set(New(Some("Foo")), Int(1), None) == Failure(TypeMismatch("Foo"))
    ensures IsTypedCollection(New(None))
  {
  }

  /** The corrected `isTypedCollection` holds exactly when `set` can reject
      a value. */
  lemma IsTypedCollectionIntendedIffRejects(c: Collection)
    ensures IsTypedCollectionIntended(c) <==> Set(c, Null, None).Failure?
    ensures !IsTypedCollectionIntended(c) ==> forall v, name :: Set(c, v, name).Success?
  {
  }

  /** As written, three objects of class T set into a collection of T
      nest: the third `set` wraps the pair built by the second, giving
      `[[a, a], a]`, where the list `[a, a, a]` was meant. */
  lemma TypedSetNestsRepeatedKeys()
    ensures var a := Obj("T", {}, map[]);
      var c1 := Set(New(Some("T")), a, None);
      && c1.Success? && Set(c1.value, a, None).Success?
      && var c2 := Set(c1.value, a, None).value;
      && Set(c2, a, None).Success?
      && Get(Set(c2, a, None).value, "T") == Success(Arr(ListOf([Arr(ListOf([a, a])), a])))
  {
    var a := Obj("T", {}, map[]);
    var k := Normalize(SK("T"));
    assert TypedKey(a, None) == k;
    var c0 := New(Some("T"));
    assert Lookup(c0.values, k) == None;
    var c1 := Set(c0, a, None).value;
    assert Lookup(c1.values, k) == Some(a);
    var c2 := Set(c1, a, None).value;
    assert Lookup(c2.values, k) == Some(Arr(ListOf([a, a])));
    var c3 := Set(c2, a, None).value;
    assert Lookup(c3.values, k) == Some(Arr(ListOf([Arr(ListOf([a, a])), a])));
  }

  /** With the intended array test the same three `set` calls build the
      flat list `[a, a, a]`. */
  lemma TypedSetListsRepeatedKeys()
    ensures var a := Obj("T", {}, map[]);
      var c1 := SetIntended(New(Some("T")), a, None);
      && c1.Success? && SetIntended(c1.value, a, None).Success?
      && var c2 := SetIntended(c1.value, a, None).value;
      && SetIntended(c2, a, None).Success?
      && Get(SetIntended(c2, a, None).value, "T") == Success(Arr(ListOf([a, a, a])))
  {
    var a := Obj("T", {}, map[]);
    var k := Normalize(SK("T"));
    assert TypedKey(a, None) == k;
    var c0 := New(Some("T"));
    assert Lookup(c0.values, k) == None;
    var c1 := SetIntended(c0, a, None).value;
    assert Lookup(c1.values, k) == Some(a);
    var c2 := SetIntended(c1, a, None).value;
    assert Lookup(c2.values, k) == Some(Arr(ListOf([a, a])));
    var c3 := SetIntended(c2, a, None).value;
    PushListOf([a, a], a);
    assert [a, a] + [a] == [a, a, a];
    assert Lookup(c3.values, k) == Some(Arr(ListOf([a, a, a])));
  }
}

=== FILE: comparators.dfy ===
/** The comparison closures of the two sorts (`arraySortingFunction` and
    `objectSortingfunction`): a lexicographic comparison over a list of
    (field, direction) criteria, where the first criterion on which two
    elements differ decides. */
module Comparators {
  import opened PhpStrings
  import opened Values

  /** One validated criterion as the caller wrote it. */
  datatype Criterion = Criterion(field: string, direction: string)

  /** A criterion after the comparator has decided its direction. */
  datatype Order = Order(field: string, ascending: bool)

  /** The field a criterion reads: `$a[$column]` of an array element (the
      column string addresses keys as any string key does), `$a->$property`
      of an object. A missing field reads as null. */
  function FieldOf(v: Value, field: string): Value {
    match v
    case Arr(a) => (match Lookup(a, Normalize(SK(field))) case Some(x) => x case None => Null)
    case Obj(_, _, fields) => if field in fields then fields[field] else Null
    case _ => Null
  }

  /** `$x <=> $y` on integers. */
  function Spaceship(x: int, y: int): (r: int)
    ensures -1 <= r <= 1
    ensures r == 0 <==> x == y
    ensures r < 0 <==> x < y
  {
    if x < y then -1 else if x > y then 1 else 0
  }

  /** Two field values the comparators are modelled on: both integers, or
      both strings. Floats and mixed kinds, which PHP juggles, are not. */
  predicate SameKind(x: Value, y: Value) {
    (x.Int? && y.Int?) || (x.Str? && y.Str?)
  }

  /** Every criterion field of `a` and `b` is of the same modelled kind. */
  predicate Comparable(a: Value, b: Value, orders: seq<Order>) {
    forall i :: 0 <= i < |orders| ==> SameKind(FieldOf(a, orders[i].field), FieldOf(b, orders[i].field))
  }

  /** `a` and `b` agree on every criterion field. */
  predicate Tied(a: Value, b: Value, orders: seq<Order>) {
    forall i :: 0 <= i < |orders| ==> FieldOf(a, orders[i].field) == FieldOf(b, orders[i].field)
  }

  /** Integers before strings before everything else; used only to make the
      comparison total outside the modelled kinds. */
  function KindRank(x: Value): int {
    if x.Int? then 0 else if x.Str? then 1 else 2
  }

  /** The ascending comparison of two field values: `<=>` on integers,
      `strcmp` on strings. Pairs of other kinds, which the sorts never
      compare (see `Comparable`), are ordered by kind alone so that this is
      a total preorder on all values. */
  function CompareField(x: Value, y: Value): (r: int)
    ensures -1 <= r <= 1
    ensures SameKind(x, y) ==> (r == 0 <==> x == y)
  {
    if x.Int? && y.Int? then Spaceship(x.i, y.i)
    else if x.Str? && y.Str? then Strcmp(x.s, y.s)
    else Spaceship(KindRank(x), KindRank(y))
  }

  /** One criterion: the ascending comparison, or with the operands swapped
      for a descending one. */
  function CompareOne(a: Value, b: Value, o: Order): (r: int)
    ensures -1 <= r <= 1
  {
    var x := FieldOf(a, o.field);
    var y := FieldOf(b, o.field);
    if o.ascending then CompareField(x, y) else CompareField(y, x)
  }

  /** The `array_reduce` over the criteria: the running result is returned
      as soon as it is non-zero, so the first criterion that separates the
      two elements decides; with no criteria every pair compares equal. */
  function Compare(a: Value, b: Value, orders: seq<Order>): (r: int)
    ensures -1 <= r <= 1
    decreases |orders|
  {
    if orders == [] then 0
    else
      var c := CompareOne(a, b, orders[0]);
      if c != 0 then c else Compare(a, b, orders[1..])
  }

  /* -------------------------------------------------------------- lemmas */

  lemma CompareFieldAntisymmetric(x: Value, y: Value)
    ensures CompareField(x, y) == -CompareField(y, x)
  {
    if x.Str? && y.Str? {
      StrcmpAntisymmetric(x.s, y.s);
    }
  }

  lemma CompareFieldTransitive(x: Value, y: Value, z: Value)
    requires CompareField(x, y) <= 0 && CompareField(y, z) <= 0
    ensures CompareField(x, z) <= 0
  {
    if x.Str? && y.Str? && z.Str? {
      StrcmpTransitive(x.s, y.s, z.s);
    }
  }

  /** Swapping the operands negates the comparison. */
  lemma {:induction false} CompareAntisymmetric(a: Value, b: Value, orders: seq<Order>)
    ensures Compare(a, b, orders) == -Compare(b, a, orders)
    decreases |orders|
  {
    if orders != [] {
      var o := orders[0];
      CompareFieldAntisymmetric(FieldOf(a, o.field), FieldOf(b, o.field));
      CompareAntisymmetric(a, b, orders[1..]);
    }
  }

  lemma CompareOneTransitive(a: Value, b: Value, c: Value, o: Order)
    requires CompareOne(a, b, o) <= 0 && CompareOne(b, c, o) <= 0
    ensures CompareOne(a, c, o) <= 0
    ensures CompareOne(a, c, o) == 0 ==> CompareOne(a, b, o) == 0 && CompareOne(b, c, o) == 0
  {
    var x := FieldOf(a, o.field);
    var y := FieldOf(b, o.field);
    var z := FieldOf(c, o.field);
    CompareFieldAntisymmetric(x, y);
    CompareFieldAntisymmetric(y, z);
    CompareFieldAntisymmetric(x, z);
    if o.ascending {
      CompareFieldTransitive(x, y, z);
      if CompareField(x, z) == 0 {
        CompareFieldTransitive(z, x, y);
        CompareFieldTransitive(y, z, x);
      }
    } else {
      CompareFieldTransitive(z, y, x);
      if CompareField(z, x) == 0 {
        CompareFieldTransitive(x, z, y);
        CompareFieldTransitive(y, x, z);
      }
    }
  }

  /** The comparison is transitive; with antisymmetry it is a total
      preorder, which is what a sort needs of its comparator. */
  lemma {:induction false} CompareTransitive(a: Value, b: Value, c: Value, orders: seq<Order>)
    requires Compare(a, b, orders) <= 0 && Compare(b, c, orders) <= 0
    ensures Compare(a, c, orders) <= 0
    decreases |orders|
  {
    if orders != [] {
      var o := orders[0];
      CompareOneTransitive(a, b, c, o);
      if CompareOne(a, b, o) == 0 && CompareOne(b, c, o) == 0 {
        CompareTransitive(a, b, c, orders[1..]);
      }
    }
  }

  /** Comparing equal is an equivalence. */
  lemma CompareEquivalence(a: Value, b: Value, c: Value, orders: seq<Order>)
    ensures Compare(a, a, orders) == 0
    ensures Compare(a, b, orders) == 0 ==> Compare(b, a, orders) == 0
    ensures Compare(a, b, orders) == 0 && Compare(b, c, orders) == 0 ==> Compare(a, c, orders) == 0
  {
    CompareAntisymmetric(a, a, orders);
    CompareAntisymmetric(a, b, orders);
    CompareAntisymmetric(b, c, orders);
    CompareAntisymmetric(a, c, orders);
    if Compare(a, b, orders) == 0 && Compare(b, c, orders) == 0 {
      CompareTransitive(a, b, c, orders);
      CompareTransitive(c, b, a, orders);
    }
  }

  /** On the modelled kinds two elements compare equal exactly when they
      agree on every criterion field. */
  lemma {:induction false} CompareZeroIffTied(a: Value, b: Value, orders: seq<Order>)
    requires Comparable(a, b, orders)
    ensures Compare(a, b, orders) == 0 <==> Tied(a, b, orders)
    decreases |orders|
  {
    if orders != [] {
      assert SameKind(FieldOf(a, orders[0].field), FieldOf(b, orders[0].field));
      assert Comparable(a, b, orders[1..]) by {
        forall i | 0 <= i < |orders[1..]|
          ensures SameKind(FieldOf(a, orders[1..][i].field), FieldOf(b, orders[1..][i].field))
        {
          assert orders[1..][i] == orders[i + 1];
        }
      }
      CompareZeroIffTied(a, b, orders[1..]);
      CompareFieldAntisymmetric(FieldOf(a, orders[0].field), FieldOf(b, orders[0].field));
      if Tied(a, b, orders[1..]) && FieldOf(a, orders[0].field) == FieldOf(b, orders[0].field) {
        forall i | 0 <= i < |orders| ensures FieldOf(a, orders[i].field) == FieldOf(b, orders[i].field) {
          if i > 0 {
            assert orders[1..][i - 1] == orders[i];
          }
        }
      }
      if Tied(a, b, orders) {
        forall i | 0 <= i < |orders[1..]|
          ensures FieldOf(a, orders[1..][i].field) == FieldOf(b, orders[1..][i].field)
        {
          assert orders[1..][i] == orders[i + 1];
        }
      }
    }
  }
}

=== FILE: needles.dfy ===
/** The `$needle` argument of the path operations and its parsing into a
    head key and the remaining path (`Arrays::getKeyFromNeedle`). */
module Needles {
  import opened Wrappers
  import opened PhpStrings
  import opened Values

  /** A separator-delimited string such as "a.b.c", or an explicit list of
      keys that are used verbatim and never split. */
  datatype Needle = Dotted(path: string) | KeyList(keys: seq<Key>)

  /** The first key of a needle and the keys that remain after it. */
  datatype Parsed = Parsed(head: Key, rest: seq<Key>) {
    function Path(): seq<Key> {
      [head] + rest
    }
  }

  /** The default separator of every path operation. */
  const DefaultSeparator: string := "."

  function StringKeys(pieces: seq<string>): (r: seq<Key>)
    ensures |r| == |pieces|
    ensures forall i :: 0 <= i < |pieces| ==> r[i] == SK(pieces[i])
  {
    seq(|pieces|, i requires 0 <= i < |pieces| => SK(pieces[i]))
  }

  function KeyStrings(ks: seq<Key>): (r: seq<string>)
    ensures |r| == |ks|
    ensures forall i :: 0 <= i < |ks| ==> r[i] == KeyString(ks[i])
  {
    seq(|ks|, i requires 0 <= i < |ks| => KeyString(ks[i]))
  }

  /** The pieces of an exploded string needle, as string keys. */
  function ExplodeNeedle(path: string, sep: string): (p: Parsed)
    requires |sep| > 0
    ensures forall i :: 0 <= i < |p.Path()| ==> p.Path()[i].SK?
    ensures forall i :: 0 <= i < |p.Path()| ==> SepFree(p.Path()[i].s, sep)
    ensures Implode(KeyStrings(p.Path()), sep) == path
  {
    var pieces := Explode(path, sep);
    var p := Parsed(SK(pieces[0]), StringKeys(pieces[1..]));
    assert p.Path() == StringKeys(pieces);
    assert KeyStrings(p.Path()) == pieces;
    p
  }

  /** An empty key list, or a string that `trim` reduces to '', is an
      empty needle. A list yields its first element and the rest; a string
      is exploded on the separator and yields the first piece and the
      remaining pieces, which glue back into the string. */
  function GetKeyFromNeedle(needle: Needle, sep: string): (r: Result<Parsed, Error>)
    requires |sep| > 0
    ensures r.Failure? ==> r.error == EmptyNeedle
    ensures needle.KeyList? ==> (r.Success? <==> needle.keys != [])
    ensures needle.KeyList? && r.Success? ==> r.value.Path() == needle.keys
    ensures needle.Dotted? ==> (r.Success? <==> !AllTrimChars(needle.path))
    ensures needle.Dotted? && r.Success? ==> r.value == ExplodeNeedle(needle.path, sep)
  {
    match needle
    case KeyList(keys) =>
      if keys == [] then Failure(EmptyNeedle) else Success(Parsed(keys[0], keys[1..]))
    case Dotted(path) =>
      TrimEmptyIffBlank(path);
      if Trim(path) == "" then Failure(EmptyNeedle) else Success(ExplodeNeedle(path, sep))
  }
}

=== FILE: path_lemmas.dfy ===
/** What the path operations promise about each other: `hasKey` agrees
    with `get`, `set` and `add` are read back by `get`, `delete` removes
    exactly what `get` returns, and none of them touches a path that
    branches off the one they act on. */
module PathLemmas {
  import opened Wrappers
  import opened Values
  import opened Needles
  import opened Tree
  import opened Paths
  import opened Seqs

  /* ----------------------------------------------------- hasKey and get */

  /** `hasKey` answers true exactly where `get` succeeds, and both raise
      the TypeError for the same paths; everywhere else `hasKey` answers
      false while `get` reports the empty haystack or the invalid key. */
  lemma {:induction false} HasPathMatchesGetPath(path: seq<Key>, h: PhpArray)
    requires |path| > 0
    ensures HasPath(path, h) == Success(true) <==> GetPath(path, h).Success?
    ensures HasPath(path, h) == Failure(TypeError) <==> GetPath(path, h) == Failure(TypeError)
    ensures HasPath(path, h) == Success(false) <==>
      GetPath(path, h).Failure? && (GetPath(path, h).error == EmptyHaystack || GetPath(path, h).error.InvalidKey?)
    decreases |path|
  {
    if h.entries != [] && |path| > 1 {
      match Slot(h, Normalize(path[0]))
      case None =>
      case Some(v) =>
        if v.Arr? {
          HasPathMatchesGetPath(path[1..], v.a);
        }
    }
  }

  lemma HasKeyMatchesGet(needle: Needle, h: PhpArray, sep: string)
    requires |sep| > 0
    ensures HasKey(needle, h, sep) == Success(true) <==> Get(needle, h, sep).Success?
    ensures HasKey(needle, h, sep) == Failure(TypeError) <==> Get(needle, h, sep) == Failure(TypeError)
    ensures HasKey(needle, h, sep) == Failure(EmptyNeedle) <==> Get(needle, h, sep) == Failure(EmptyNeedle)
    ensures HasKey(needle, h, sep) == Success(false) <==>
      Get(needle, h, sep).Failure? && (Get(needle, h, sep).error == EmptyHaystack || Get(needle, h, sep).error.InvalidKey?)
  {
    var hk := HasKey(needle, h, sep);
    var g := Get(needle, h, sep);
    if h.entries != [] {
      var parsed := GetKeyFromNeedle(needle, sep);
      if parsed.Success? {
        var path := parsed.value.Path();
        HasPathMatchesGetPath(path, h);
        assert hk == HasPath(path, h);
        assert g.Failure? ==> g.error != EmptyNeedle;
        assert g == GetPath(path, h);
      }
    }
  }

  /** A non-empty key list parses into its first key and the rest, under
      any separator. */
  lemma ParseKeyList(keys: seq<Key>)
    requires keys != []
    ensures GetKeyFromNeedle(KeyList(keys), DefaultSeparator) == Success(Parsed(keys[0], keys[1..]))
  {
    var p := GetKeyFromNeedle(KeyList(keys), DefaultSeparator).value;
    assert p.Path()[0] == p.head && p.Path()[1..] == p.rest;
  }

  /* ------------------------------------------- one step of the source */

  /** A parsed needle's path starts with its head and goes on with its rest. */
  lemma ParsedPath(p: Parsed)
    ensures |p.Path()| == |p.rest| + 1
    ensures p.Path()[0] == p.head && p.Path()[1..] == p.rest
  {
    assert p.Path() == [p.head] + p.rest;
  }

  /** The public functions hand the parsed path to the path walkers. */
  lemma PublicIsPath(needle: Needle, v: Value, h: PhpArray, sep: string)
    requires |sep| > 0 && GetKeyFromNeedle(needle, sep).Success?
    ensures var path := GetKeyFromNeedle(needle, sep).value.Path();
      && Set(needle, v, h, sep) == SetPath(path, v, h)
      && Add(needle, v, h, sep) == AddPath(path, v, h)
      && (h.entries != [] ==>
            && HasKey(needle, h, sep) == HasPath(path, h)
            && Get(needle, h, sep) == GetPath(path, h)
            && Delete(needle, h, sep) == DeletePath(path, h))
  {
  }

  /** A non-empty key list is walked as it stands. */
  lemma KeyListIsPath(keys: seq<Key>, v: Value, c: PhpArray)
    requires keys != []
    ensures HasKey(KeyList(keys), c, DefaultSeparator) == HasPath(keys, c)
    ensures Get(KeyList(keys), c, DefaultSeparator) == GetPath(keys, c)
    ensures Set(KeyList(keys), v, c, DefaultSeparator) == SetPath(keys, v, c)
    ensures Add(KeyList(keys), v, c, DefaultSeparator) == AddPath(keys, v, c)
    ensures Delete(KeyList(keys), c, DefaultSeparator) == DeletePath(keys, c)
  {
    ParseKeyList(keys);
    ParsedPath(Parsed(keys[0], keys[1..]));
    PublicIsPath(KeyList(keys), v, c, DefaultSeparator);
  }

  /** The source's recursion: when the needle has more keys and the head
      names an array, `hasKey` is `hasKey` of the remaining key list on that
      array, with the default separator. */
  lemma HasKeyUnfolds(needle: Needle, h: PhpArray, sep: string, c: PhpArray)
    requires |sep| > 0 && h.entries != []
    requires GetKeyFromNeedle(needle, sep).Success?
    requires var p := GetKeyFromNeedle(needle, sep).value;
      p.rest != [] && Slot(h, Normalize(p.head)) == Some(Arr(c))
    ensures HasKey(needle, h, sep) == HasKey(KeyList(GetKeyFromNeedle(needle, sep).value.rest), c, DefaultSeparator)
  {
    var p := GetKeyFromNeedle(needle, sep).value;
    ParsedPath(p);
    PublicIsPath(needle, Null, h, sep);
    HasPathStep(p.Path(), h, c);
    KeyListIsPath(p.rest, Null, c);
  }

  lemma GetUnfolds(needle: Needle, h: PhpArray, sep: string, c: PhpArray)
    requires |sep| > 0 && h.entries != []
    requires GetKeyFromNeedle(needle, sep).Success?
    requires var p := GetKeyFromNeedle(needle, sep).value;
      p.rest != [] && Slot(h, Normalize(p.head)) == Some(Arr(c))
    ensures Get(needle, h, sep) == Get(KeyList(GetKeyFromNeedle(needle, sep).value.rest), c, DefaultSeparator)
  {
    var p := GetKeyFromNeedle(needle, sep).value;
    ParsedPath(p);
    PublicIsPath(needle, Null, h, sep);
    GetPathStep(p.Path(), h, c);
    KeyListIsPath(p.rest, Null, c);
  }

  /** One step of `SetPath` on a path of two or more keys. */
  lemma SetPathStep(path: seq<Key>, v: Value, h: PhpArray)
    requires |path| > 1
    ensures var child := ChildForWrite(h, Normalize(path[0]));
      child.Failure? ==> SetPath(path, v, h) == Failure(child.error)
    ensures var child := ChildForWrite(h, Normalize(path[0]));
      child.Success? && SetPath(path[1..], v, child.value).Failure? ==>
        SetPath(path, v, h) == Failure(SetPath(path[1..], v, child.value).error)
    ensures var child := ChildForWrite(h, Normalize(path[0]));
      child.Success? && SetPath(path[1..], v, child.value).Success? ==>
        SetPath(path, v, h) == Success(Store(h, Normalize(path[0]), Arr(SetPath(path[1..], v, child.value).value)))
  {
  }

  /** One step of `AddPath` on a path of two or more keys. */
  lemma AddPathStep(path: seq<Key>, v: Value, h: PhpArray)
    requires |path| > 1
    ensures var child := ChildForWrite(h, Normalize(path[0]));
      child.Failure? ==> AddPath(path, v, h) == Failure(child.error)
    ensures var child := ChildForWrite(h, Normalize(path[0]));
      child.Success? && AddPath(path[1..], v, child.value).Failure? ==>
        AddPath(path, v, h) == Failure(AddPath(path[1..], v, child.value).error)
    ensures var child := ChildForWrite(h, Normalize(path[0]));
      child.Success? && AddPath(path[1..], v, child.value).Success? ==>
        AddPath(path, v, h) == Success(Store(h, Normalize(path[0]), Arr(AddPath(path[1..], v, child.value).value)))
  {
  }

  /** `set` with more keys to go stores, at the head key, the result of
      `set` on the remaining key list inside the child array. */
  lemma SetUnfolds(needle: Needle, v: Value, h: PhpArray, sep: string)
    requires |sep| > 0
    requires GetKeyFromNeedle(needle, sep).Success?
    requires GetKeyFromNeedle(needle, sep).value.rest != []
    ensures var p := GetKeyFromNeedle(needle, sep).value;
      var k := Normalize(p.head);
      Set(needle, v, h, sep) ==
        match ChildForWrite(h, k)
        case Failure(e) => Failure(e)
        case Success(child) =>
          match Set(KeyList(p.rest), v, child, DefaultSeparator)
          case Failure(e) => Failure(e)
          case Success(c) => Success(Store(h, k, Arr(c)))
  {
    var p := GetKeyFromNeedle(needle, sep).value;
    ParsedPath(p);
    PublicIsPath(needle, v, h, sep);
    SetPathStep(p.Path(), v, h);
    var child := ChildForWrite(h, Normalize(p.head));
    if child.Success? {
      KeyListIsPath(p.rest, v, child.value);
    }
  }

  lemma AddUnfolds(needle: Needle, v: Value, h: PhpArray, sep: string)
    requires |sep| > 0
    requires GetKeyFromNeedle(needle, sep).Success?
    requires GetKeyFromNeedle(needle, sep).value.rest != []
    ensures var p := GetKeyFromNeedle(needle, sep).value;
      var k := Normalize(p.head);
      Add(needle, v, h, sep) ==
        match ChildForWrite(h, k)
        case Failure(e) => Failure(e)
        case Success(child) =>
          match Add(KeyList(p.rest), v, child, DefaultSeparator)
          case Failure(e) => Failure(e)
          case Success(c) => Success(Store(h, k, Arr(c)))
  {
    var p := GetKeyFromNeedle(needle, sep).value;
    ParsedPath(p);
    PublicIsPath(needle, v, h, sep);
    AddPathStep(p.Path(), v, h);
    var child := ChildForWrite(h, Normalize(p.head));
    if child.Success? {
      KeyListIsPath(p.rest, v, child.value);
    }
  }

  lemma DeleteUnfolds(needle: Needle, h: PhpArray, sep: string, c: PhpArray)
    requires |sep| > 0 && h.entries != []
    requires GetKeyFromNeedle(needle, sep).Success?
    requires var p := GetKeyFromNeedle(needle, sep).value;
      p.rest != [] && Slot(h, Normalize(p.head)) == Some(Arr(c))
    ensures var p := GetKeyFromNeedle(needle, sep).value;
      Delete(needle, h, sep) ==
        match Delete(KeyList(p.rest), c, DefaultSeparator)
        case Failure(e) => Failure(e)
        case Success(rm) => Success(Removed(rm.value, Store(h, Normalize(p.head), Arr(rm.haystack))))
  {
    var p := GetKeyFromNeedle(needle, sep).value;
    ParsedPath(p);
    PublicIsPath(needle, Null, h, sep);
    DeletePathStep(p.Path(), h, c);
    KeyListIsPath(p.rest, Null, c);
  }

  /** One step of `DeletePath` through an array on the way. */
  lemma DeletePathStep(path: seq<Key>, h: PhpArray, c: PhpArray)
    requires |path| > 1 && h.entries != [] && Slot(h, Normalize(path[0])) == Some(Arr(c))
    ensures var inner := DeletePath(path[1..], c);
      inner.Failure? ==> DeletePath(path, h) == Failure(inner.error)
    ensures var inner := DeletePath(path[1..], c);
      inner.Success? ==>
        var rm := inner.value;
        DeletePath(path, h) == Success(Removed(rm.value, Store(h, Normalize(path[0]), Arr(rm.haystack))))
  {
  }

  /* ----------------------------------------------------------- set/get */

  /** After `set`, `get` on the same path returns the stored value; a null
      stored value reads back as an invalid last key, since `isset` ignores
      it. */
  lemma {:induction false} SetPathThenGetPath(path: seq<Key>, v: Value, h: PhpArray)
    requires |path| > 0 && SetPath(path, v, h).Success?
    ensures GetPath(path, SetPath(path, v, h).value)
         == if v == Null then Failure(InvalidKey(path[|path| - 1])) else Success(v)
    decreases |path|
  {
    if |path| > 1 {
      var child := ChildForWrite(h, Normalize(path[0])).value;
      SetPathThenGetPath(path[1..], v, child);
    }
  }

  /** `set` fails exactly on the paths where `get` raises the TypeError: a
      proper prefix of the path ends at a value that is neither null nor an
      array. */
  lemma {:induction false} SetPathFailsIffBlocked(path: seq<Key>, v: Value, h: PhpArray)
    requires |path| > 0
    ensures SetPath(path, v, h).Failure? <==> GetPath(path, h) == Failure(TypeError)
    decreases |path|
  {
    if |path| > 1 {
      var k := Normalize(path[0]);
      match ChildForWrite(h, k)
      case Failure(_) =>
      case Success(child) =>
        SetPathFailsIffBlocked(path[1..], v, child);
    }
  }

  /** The public form: with a non-null value, `set` followed by `get` or
      `hasKey` on the same needle finds it. */
  lemma SetThenGet(needle: Needle, v: Value, h: PhpArray, sep: string)
    requires |sep| > 0 && v != Null && Set(needle, v, h, sep).Success?
    ensures Get(needle, Set(needle, v, h, sep).value, sep) == Success(v)
    ensures HasKey(needle, Set(needle, v, h, sep).value, sep) == Success(true)
  {
    var p := GetKeyFromNeedle(needle, sep).value;
    SetPathThenGetPath(p.Path(), v, h);
    HasPathMatchesGetPath(p.Path(), Set(needle, v, h, sep).value);
  }

  /** Two paths branch apart: at some common depth their (normalised) keys
      differ. Neither is then a prefix of the other. */
  predicate Diverge(p: seq<Key>, q: seq<Key>)
    decreases |p|
  {
    |p| > 0 && |q| > 0 && (Normalize(p[0]) != Normalize(q[0]) || Diverge(p[1..], q[1..]))
  }

  /** `set` leaves every path that branches off its own path as it was:
      what was readable there still reads the same, and nothing readable
      appears there. */
  lemma {:induction false} SetPathFrame(p: seq<Key>, v: Value, h: PhpArray, q: seq<Key>)
    requires |p| > 0 && SetPath(p, v, h).Success? && Diverge(p, q)
    ensures GetPath(q, h).Success? ==> GetPath(q, SetPath(p, v, h).value) == GetPath(q, h)
    ensures GetPath(q, SetPath(p, v, h).value).Success? ==> GetPath(q, h) == GetPath(q, SetPath(p, v, h).value)
    decreases |p|
  {
    var k := Normalize(p[0]);
    var h' := SetPath(p, v, h).value;
    if Normalize(q[0]) == k {
      assert Diverge(p[1..], q[1..]);
      var child := ChildForWrite(h, k).value;
      SetPathFrame(p[1..], v, child, q[1..]);
      var c := SetPath(p[1..], v, child).value;
      assert h' == Store(h, k, Arr(c));
      GetPathStep(q, h', c);
      if Slot(h, k).Some? {
        GetPathStep(q, h, child);
      }
    } else {
      assert Lookup(h', Normalize(q[0])) == Lookup(h, Normalize(q[0]));
      if h.entries != [] {
        GetPathSameSlot(q, h, h');
      }
    }
  }

  /* ----------------------------------------------------------- add/get */

  /** What `get` saw at a path before a write, as an option. */
  function Prior(path: seq<Key>, h: PhpArray): (r: Option<Value>)
    requires |path| > 0
    ensures r.Some? <==> GetPath(path, h).Success?
    ensures r.Some? ==> r.value == GetPath(path, h).value
  {
    match GetPath(path, h)
    case Success(x) => Some(x)
    case Failure(_) => None
  }

  /** After `add`, the path holds the accumulation of what was there
      before: the value itself if nothing was (or null), the old array with
      the value pushed, or the pair `[old, value]`. */
  lemma {:induction false} AddPathThenGetPath(path: seq<Key>, v: Value, h: PhpArray)
    requires |path| > 0 && AddPath(path, v, h).Success?
    ensures var n := Accumulate(Prior(path, h), v);
      GetPath(path, AddPath(path, v, h).value)
        == if n == Null then Failure(InvalidKey(path[|path| - 1])) else Success(n)
    decreases |path|
  {
    if |path| > 1 {
      var child := ChildForWrite(h, Normalize(path[0])).value;
      AddPathThenGetPath(path[1..], v, child);
    }
  }

  /** `add` onto an existing well-formed array appends one entry at its
      next free index and keeps every earlier entry as it was. */
  lemma AddPushes(path: seq<Key>, v: Value, h: PhpArray, a: PhpArray)
    requires |path| > 0 && AddPath(path, v, h).Success?
    requires GetPath(path, h) == Success(Arr(a)) && TopWellFormed(a)
    ensures GetPath(path, AddPath(path, v, h).value)
         == Success(Arr(PhpArray(a.entries + [Entry(IK(a.nextFree), v)], a.nextFree + 1)))
  {
    AddPathThenGetPath(path, v, h);
    PushAppends(a, v);
  }

  /** `add` onto an existing non-array value turns it into `[old, value]`. */
  lemma AddWraps(path: seq<Key>, v: Value, h: PhpArray, x: Value)
    requires |path| > 0 && AddPath(path, v, h).Success?
    requires GetPath(path, h) == Success(x) && !x.Arr?
    ensures GetPath(path, AddPath(path, v, h).value) == Success(Arr(ListOf([x, v])))
  {
    AddPathThenGetPath(path, v, h);
  }

  lemma {:induction false} AddPathFailsIffBlocked(path: seq<Key>, v: Value, h: PhpArray)
    requires |path| > 0
    ensures AddPath(path, v, h).Failure? <==> GetPath(path, h) == Failure(TypeError)
    decreases |path|
  {
    if |path| > 1 {
      var k := Normalize(path[0]);
      match ChildForWrite(h, k)
      case Failure(_) =>
      case Success(child) =>
        AddPathFailsIffBlocked(path[1..], v, child);
    }
  }

  lemma {:induction false} AddPathFrame(p: seq<Key>, v: Value, h: PhpArray, q: seq<Key>)
    requires |p| > 0 && AddPath(p, v, h).Success? && Diverge(p, q)
    ensures GetPath(q, h).Success? ==> GetPath(q, AddPath(p, v, h).value) == GetPath(q, h)
    ensures GetPath(q, AddPath(p, v, h).value).Success? ==> GetPath(q, h) == GetPath(q, AddPath(p, v, h).value)
    decreases |p|
  {
    var k := Normalize(p[0]);
    var h' := AddPath(p, v, h).value;
    if Normalize(q[0]) == k {
      assert Diverge(p[1..], q[1..]);
      var child := ChildForWrite(h, k).value;
      AddPathFrame(p[1..], v, child, q[1..]);
      var c := AddPath(p[1..], v, child).value;
      assert h' == Store(h, k, Arr(c));
      GetPathStep(q, h', c);
      if Slot(h, k).Some? {
        GetPathStep(q, h, child);
      }
    } else {
      assert Lookup(h', Normalize(q[0])) == Lookup(h, Normalize(q[0]));
      if h.entries != [] {
        GetPathSameSlot(q, h, h');
      }
    }
  }

  /* ------------------------------------------------------------ delete */

  /** `delete` fails exactly like `get` and otherwise returns what `get`
      returns. */
  lemma {:induction false} DeletePathMatchesGetPath(path: seq<Key>, h: PhpArray)
    requires |path| > 0
    ensures DeletePath(path, h).Success? <==> GetPath(path, h).Success?
    ensures DeletePath(path, h).Success? ==> DeletePath(path, h).value.value == GetPath(path, h).value
    ensures DeletePath(path, h).Failure? ==> DeletePath(path, h).error == GetPath(path, h).error
    decreases |path|
  {
    if h.entries != [] && |path| > 1 {
      match Slot(h, Normalize(path[0]))
      case None =>
      case Some(x) =>
        if x.Arr? {
          DeletePathMatchesGetPath(path[1..], x.a);
        }
    }
  }

  /** `delete` leaves every path that branches off its own path as it was,
      at every depth: the siblings of the removed entry and of each array
      on the way keep their values. */
  lemma {:induction false} DeletePathFrame(p: seq<Key>, h: PhpArray, q: seq<Key>)
    requires |p| > 0 && DeletePath(p, h).Success? && Diverge(p, q)
    ensures GetPath(q, h).Success? ==> GetPath(q, DeletePath(p, h).value.haystack) == GetPath(q, h)
    ensures GetPath(q, DeletePath(p, h).value.haystack).Success? ==>
      GetPath(q, h) == GetPath(q, DeletePath(p, h).value.haystack)
    decreases |p|
  {
    var k := Normalize(p[0]);
    var h' := DeletePath(p, h).value.haystack;
    if Normalize(q[0]) == k {
      assert Diverge(p[1..], q[1..]);
      var x := Slot(h, k).value;
      DeletePathStep(p, h, x.a);
      DeletePathFrame(p[1..], x.a, q[1..]);
      var c := DeletePath(p[1..], x.a).value.haystack;
      assert h' == Store(h, k, Arr(c));
      GetPathStep(q, h', c);
      GetPathStep(q, h, x.a);
    } else {
      assert Lookup(h', Normalize(q[0])) == Lookup(h, Normalize(q[0]));
      if h'.entries != [] {
        GetPathSameSlot(q, h, h');
      }
    }
  }

  /** In a well-formed array every stored value is well-formed. */
  lemma LookupWellFormed(h: PhpArray, k: Key)
    requires WellFormed(h) && Lookup(h, k).Some?
    ensures WellFormedValue(Lookup(h, k).value)
  {
    assert h.entries[Find(h.entries, k)].val == Lookup(h, k).value;
  }

  /** After `delete` the path is gone, while the array that held the
      removed entry is still in place, even if it is now empty. */
  lemma {:induction false} DeleteThenGone(path: seq<Key>, h: PhpArray)
    requires |path| > 0 && WellFormed(h) && DeletePath(path, h).Success?
    ensures HasPath(path, DeletePath(path, h).value.haystack) == Success(false)
    ensures |path| > 1 ==> GetPath(path[..|path| - 1], DeletePath(path, h).value.haystack).Success?
    ensures |path| > 1 ==> GetPath(path[..|path| - 1], DeletePath(path, h).value.haystack).value.Arr?
    decreases |path|
  {
    var k := Normalize(path[0]);
    if |path| == 1 {
      UnsetRemovesKey(h, k);
    } else {
      var x := Slot(h, k).value;
      LookupWellFormed(h, k);
      DeleteThenGone(path[1..], x.a);
      DeletePathStep(path, h, x.a);
      var h' := DeletePath(path, h).value.haystack;
      var c := DeletePath(path[1..], x.a).value.haystack;
      assert h' == Store(h, k, Arr(c));
      assert Slot(h', k) == Some(Arr(c));
      HasPathStep(path, h', c);
      var parent := path[..|path| - 1];
      SliceCommutes(path, |path| - 1);
      if |path| > 2 {
        GetPathStep(parent, h', c);
      } else {
        assert |parent| == 1;
      }
    }
  }

  /** One step of `HasPath` through an array on the way. */
  lemma HasPathStep(path: seq<Key>, h: PhpArray, c: PhpArray)
    requires |path| > 1 && h.entries != [] && Slot(h, Normalize(path[0])) == Some(Arr(c))
    ensures HasPath(path, h) == HasPath(path[1..], c)
  {
  }

  /** `GetPath` on a non-empty array looks only at the slot of the head key. */
  lemma GetPathSameSlot(path: seq<Key>, h1: PhpArray, h2: PhpArray)
    requires |path| > 0 && h1.entries != [] && h2.entries != []
    requires Slot(h1, Normalize(path[0])) == Slot(h2, Normalize(path[0]))
    ensures GetPath(path, h1) == GetPath(path, h2)
  {
  }

  /** One step of `GetPath` through an array on the way. */
  lemma GetPathStep(path: seq<Key>, h: PhpArray, c: PhpArray)
    requires |path| > 1 && h.entries != [] && Slot(h, Normalize(path[0])) == Some(Arr(c))
    ensures GetPath(path, h) == GetPath(path[1..], c)
  {
  }

  /** `delete` lowers `count` by the removed value's own count: 1 for a
      leaf, the number of its leaves for an array. */
  lemma {:induction false} DeleteCount(path: seq<Key>, h: PhpArray)
    requires |path| > 0 && DeletePath(path, h).Success?
    ensures var rm := DeletePath(path, h).value;
      |Flatten(rm.haystack)| + |FlattenValue(rm.value)| == |Flatten(h)|
    decreases |path|
  {
    var k := Normalize(path[0]);
    var i := Find(h.entries, k);
    if |path| == 1 {
      FlattenRemove(h.entries, i);
    } else {
      var x := Slot(h, k).value;
      DeleteCount(path[1..], x.a);
      var c := DeletePath(path[1..], x.a).value.haystack;
      StoreExisting(h, k, Arr(c));
      FlattenReplace(h.entries, i, Entry(k, Arr(c)));
    }
  }

  /* --------------------------------------------------- well-formedness */

  lemma {:induction false} SetPathWellFormed(path: seq<Key>, v: Value, h: PhpArray)
    requires |path| > 0 && WellFormed(h) && WellFormedValue(v) && SetPath(path, v, h).Success?
    ensures WellFormed(SetPath(path, v, h).value)
    decreases |path|
  {
    var k := Normalize(path[0]);
    if |path| == 1 {
      StoreWellFormed(h, k, v);
    } else {
      var child := ChildForWrite(h, k).value;
      if Slot(h, k).Some? {
        LookupWellFormed(h, k);
      }
      SetPathWellFormed(path[1..], v, child);
      StoreWellFormed(h, k, Arr(SetPath(path[1..], v, child).value));
    }
  }

  lemma AccumulateWellFormed(prior: Option<Value>, v: Value)
    requires prior.Some? ==> WellFormedValue(prior.value)
    requires WellFormedValue(v)
    ensures WellFormedValue(Accumulate(prior, v))
  {
    if prior.Some? {
      if prior.value.Arr? {
        StoreWellFormed(prior.value.a, IK(prior.value.a.nextFree), v);
      } else {
        ListOfWellFormed([prior.value, v]);
      }
    }
  }

  lemma {:induction false} AddPathWellFormed(path: seq<Key>, v: Value, h: PhpArray)
    requires |path| > 0 && WellFormed(h) && WellFormedValue(v) && AddPath(path, v, h).Success?
    ensures WellFormed(AddPath(path, v, h).value)
    decreases |path|
  {
    var k := Normalize(path[0]);
    if Slot(h, k).Some? {
      LookupWellFormed(h, k);
    }
    if |path| == 1 {
      AccumulateWellFormed(Slot(h, k), v);
      StoreWellFormed(h, k, Accumulate(Slot(h, k), v));
    } else {
      var child := ChildForWrite(h, k).value;
      AddPathWellFormed(path[1..], v, child);
      StoreWellFormed(h, k, Arr(AddPath(path[1..], v, child).value));
    }
  }

  lemma {:induction false} DeletePathWellFormed(path: seq<Key>, h: PhpArray)
    requires |path| > 0 && WellFormed(h) && DeletePath(path, h).Success?
    ensures WellFormed(DeletePath(path, h).value.haystack)
    decreases |path|
  {
    var k := Normalize(path[0]);
    if |path| == 1 {
      UnsetWellFormed(h, k);
    } else {
      var x := Slot(h, k).value;
      LookupWellFormed(h, k);
      DeletePathWellFormed(path[1..], x.a);
      StoreWellFormed(h, k, Arr(DeletePath(path[1..], x.a).value.haystack));
    }
  }
}

=== FILE: paths.dfy ===
/** The path operations of `Arrays`: `hasKey`, `get`, `set`, `add` and
    `delete` on a nested array addressed by a needle.

    Each source function parses its needle, acts on the head key, and
    calls itself on the remaining keys as an explicit list. Here the walk
    over the parsed key path is one recursive function per operation
    (`HasPath`, `GetPath`, ...), and the public functions parse the needle
    and hand the whole path to it. Re-parsing the non-empty remaining key
    list in the source always succeeds and yields its first element and
    the rest, so the two formulations take the same steps (`HasKeyUnfolds`
    and its companions below state this one step at a time). */
module Paths {
  import opened Wrappers
  import opened Values
  import opened Needles

  /* ------------------------------------------------------ path walking */

  /** `hasKey` on a parsed path: an empty array holds nothing, a missing or
      null head key makes the path absent, and a further step into a value
      that is not an array is a TypeError, because it is passed to the
      `array $haystack` parameter of the recursive call. */
  function HasPath(path: seq<Key>, h: PhpArray): (r: Result<bool, Error>)
    requires |path| > 0
    ensures r.Failure? ==> r.error == TypeError
    ensures h.entries == [] ==> r == Success(false)
    ensures Slot(h, Normalize(path[0])).None? ==> r == Success(false)
    decreases |path|
  {
    if h.entries == [] then Success(false)
    else match Slot(h, Normalize(path[0]))
      case None => Success(false)
      case Some(v) =>
        if |path| == 1 then Success(true)
        else if !v.Arr? then Failure(TypeError)
        else HasPath(path[1..], v.a)
  }

  /** `get` on a parsed path. The raw segment, as it appeared in the needle,
      is what "Invalid key: ..." reports. */
  function GetPath(path: seq<Key>, h: PhpArray): (r: Result<Value, Error>)
    requires |path| > 0
    ensures r.Success? ==> r.value != Null
    ensures r.Failure? ==> r.error == EmptyHaystack || r.error == TypeError
                           || (r.error.InvalidKey? && r.error.key in path)
    ensures h.entries == [] ==> r == Failure(EmptyHaystack)
    ensures |path| == 1 && h.entries != [] ==>
      r == (match Slot(h, Normalize(path[0])) case Some(v) => Success(v) case None => Failure(InvalidKey(path[0])))
    decreases |path|
  {
    if h.entries == [] then Failure(EmptyHaystack)
    else match Slot(h, Normalize(path[0]))
      case None => Failure(InvalidKey(path[0]))
      case Some(v) =>
        if |path| == 1 then Success(v)
        else if !v.Arr? then Failure(TypeError)
        else GetPath(path[1..], v.a)
  }

  /** The array that `set` and `add` descend into at key `k`: an absent or
      null entry is first replaced by `[]`; any other non-array value cannot
      be passed on as `array &$haystack`, a TypeError. */
  function ChildForWrite(h: PhpArray, k: Key): (r: Result<PhpArray, Error>)
    ensures r.Failure? <==> Slot(h, k).Some? && !Slot(h, k).value.Arr?
    ensures r.Failure? ==> r.error == TypeError
    ensures r.Success? ==> r.value == (if Slot(h, k).None? then EmptyArray else Slot(h, k).value.a)
  {
    match Slot(h, k)
    case None => Success(EmptyArray)
    case Some(v) => if v.Arr? then Success(v.a) else Failure(TypeError)
  }

  /** `set` on a parsed path: the terminal key is overwritten or appended,
      missing intermediates are created as `[]`, and every level keeps its
      other keys where they were. */
  function SetPath(path: seq<Key>, v: Value, h: PhpArray): (r: Result<PhpArray, Error>)
    requires |path| > 0
    ensures r.Failure? ==> r.error == TypeError && |path| > 1
    ensures r.Success? ==> KeysOf(r.value.entries) == KeysAfterStore(KeysOf(h.entries), Normalize(path[0]))
    ensures r.Success? ==> forall k' :: k' != Normalize(path[0]) ==> Lookup(r.value, k') == Lookup(h, k')
    ensures r.Success? ==> r.value.entries != []
    decreases |path|
  {
    var k := Normalize(path[0]);
    if |path| == 1 then Success(Store(h, k, v))
    else match ChildForWrite(h, k)
      case Failure(e) => Failure(e)
      case Success(child) =>
        match SetPath(path[1..], v, child)
        case Failure(e) => Failure(e)
        case Success(c) => Success(Store(h, k, Arr(c)))
  }

  /** What `add` leaves at the terminal key, given what `isset` saw there:
      nothing → the value; an array → the array with the value pushed; any
      other value `x` → the list `[x, value]`. */
  function Accumulate(prior: Option<Value>, v: Value): (r: Value)
    ensures prior.None? ==> r == v
    ensures prior.Some? ==> r.Arr?
    ensures prior.Some? && prior.value.Arr? ==> r.a == Push(prior.value.a, v)
    ensures prior.Some? && !prior.value.Arr? ==> r.a == ListOf([prior.value, v])
  {
    match prior
    case None => v
    case Some(x) => if x.Arr? then Arr(Push(x.a, v)) else Arr(ListOf([x, v]))
  }

  /** `add` on a parsed path: like `set`, but an occupied terminal key
      accumulates duplicates instead of being overwritten. */
  function AddPath(path: seq<Key>, v: Value, h: PhpArray): (r: Result<PhpArray, Error>)
    requires |path| > 0
    ensures r.Failure? ==> r.error == TypeError && |path| > 1
    ensures r.Success? ==> KeysOf(r.value.entries) == KeysAfterStore(KeysOf(h.entries), Normalize(path[0]))
    ensures r.Success? ==> forall k' :: k' != Normalize(path[0]) ==> Lookup(r.value, k') == Lookup(h, k')
    ensures r.Success? ==> r.value.entries != []
    decreases |path|
  {
    var k := Normalize(path[0]);
    if |path| == 1 then Success(Store(h, k, Accumulate(Slot(h, k), v)))
    else match ChildForWrite(h, k)
      case Failure(e) => Failure(e)
      case Success(child) =>
        match AddPath(path[1..], v, child)
        case Failure(e) => Failure(e)
        case Success(c) => Success(Store(h, k, Arr(c)))
  }

  /** The outcome of `delete`: the removed value and the updated haystack. */
  datatype Removed = Removed(value: Value, haystack: PhpArray)

  /** `delete` on a parsed path: fails exactly like `get`; otherwise the
      terminal entry is unset and its value returned. The arrays on the way
      stay in place even when they become empty. */
  function DeletePath(path: seq<Key>, h: PhpArray): (r: Result<Removed, Error>)
    requires |path| > 0
    ensures r.Success? ==> r.value.value != Null
    ensures r.Success? ==> forall k' :: k' != Normalize(path[0]) ==> Lookup(r.value.haystack, k') == Lookup(h, k')
    ensures r.Success? && |path| > 1 ==> KeysOf(r.value.haystack.entries) == KeysOf(h.entries)
    ensures r.Success? ==> r.value.haystack.nextFree == h.nextFree
    decreases |path|
  {
    if h.entries == [] then Failure(EmptyHaystack)
    else
      var k := Normalize(path[0]);
      match Slot(h, k)
      case None => Failure(InvalidKey(path[0]))
      case Some(x) =>
        if |path| == 1 then
          assert forall k' :: k' != k ==> Lookup(Unset(h, k), k') == Lookup(h, k') by {
            forall k' | k' != k ensures Lookup(Unset(h, k), k') == Lookup(h, k') {
              UnsetKeepsOthers(h, k, k');
            }
          }
          Success(Removed(x, Unset(h, k)))
        else if !x.Arr? then Failure(TypeError)
        else match DeletePath(path[1..], x.a)
          case Failure(e) => Failure(e)
          case Success(rm) =>
            StoreExisting(h, k, Arr(rm.haystack));
            Success(Removed(rm.value, Store(h, k, Arr(rm.haystack))))
  }

  /* ---------------------------------------------------- public functions */

  /** `Arrays::hasKey`: an empty haystack is checked before the needle is
      parsed, so it answers false even for an empty needle. */
  function HasKey(needle: Needle, h: PhpArray, sep: string): (r: Result<bool, Error>)
    requires |sep| > 0
    ensures h.entries == [] ==> r == Success(false)
    ensures r.Failure? ==> r.error == EmptyNeedle || r.error == TypeError
    ensures h.entries != [] && GetKeyFromNeedle(needle, sep).Failure? ==> r == Failure(EmptyNeedle)
  {
    if h.entries == [] then Success(false)
    else match GetKeyFromNeedle(needle, sep)
      case Failure(e) => Failure(e)
      case Success(p) => HasPath(p.Path(), h)
  }

  /** `Arrays::get`: "Empty haystack" takes precedence over "Empty needle". */
  function Get(needle: Needle, h: PhpArray, sep: string): (r: Result<Value, Error>)
    requires |sep| > 0
    ensures h.entries == [] ==> r == Failure(EmptyHaystack)
    ensures h.entries != [] && GetKeyFromNeedle(needle, sep).Failure? ==> r == Failure(EmptyNeedle)
    ensures r.Success? ==> r.value != Null
  {
    if h.entries == [] then Failure(EmptyHaystack)
    else match GetKeyFromNeedle(needle, sep)
      case Failure(e) => Failure(e)
      case Success(p) => GetPath(p.Path(), h)
  }

  /** `Arrays::set`: the needle is parsed first, so an empty needle fails
      even on an empty haystack. */
  function Set(needle: Needle, v: Value, h: PhpArray, sep: string): (r: Result<PhpArray, Error>)
    requires |sep| > 0
    ensures r.Failure? ==> r.error == EmptyNeedle || r.error == TypeError
    ensures r == Failure(EmptyNeedle) <==> GetKeyFromNeedle(needle, sep).Failure?
  {
    match GetKeyFromNeedle(needle, sep)
    case Failure(e) => Failure(e)
    case Success(p) => SetPath(p.Path(), v, h)
  }

  /** `Arrays::add`. */
  function Add(needle: Needle, v: Value, h: PhpArray, sep: string): (r: Result<PhpArray, Error>)
    requires |sep| > 0
    ensures r.Failure? ==> r.error == EmptyNeedle || r.error == TypeError
    ensures r == Failure(EmptyNeedle) <==> GetKeyFromNeedle(needle, sep).Failure?
  {
    match GetKeyFromNeedle(needle, sep)
    case Failure(e) => Failure(e)
    case Success(p) => AddPath(p.Path(), v, h)
  }

  /** `Arrays::delete`: checks like `get`, then removes the terminal entry. */
  function Delete(needle: Needle, h: PhpArray, sep: string): (r: Result<Removed, Error>)
    requires |sep| > 0
    ensures h.entries == [] ==> r == Failure(EmptyHaystack)
    ensures h.entries != [] && GetKeyFromNeedle(needle, sep).Failure? ==> r == Failure(EmptyNeedle)
    ensures r.Success? ==> r.value.value != Null
  {
    if h.entries == [] then Failure(EmptyHaystack)
    else match GetKeyFromNeedle(needle, sep)
      case Failure(e) => Failure(e)
      case Success(p) => DeletePath(p.Path(), h)
  }
}

=== FILE: seqs.dfy ===
/** Order-preserving selections from sequences, used for the filtered
    enumerations and for the key skeleton of an array. */
module Seqs {

  /** `xs` can be obtained from `ys` by deleting elements. */
  predicate IsSubsequence<T(==)>(xs: seq<T>, ys: seq<T>)
    decreases |ys|
  {
    if xs == [] then true
    else if ys == [] then false
    else if xs[0] == ys[0] then IsSubsequence(xs[1..], ys[1..])
    else IsSubsequence(xs, ys[1..])
  }

  /** The elements of `s` that satisfy `p`, in their order in `s`. */
  function Filter<T>(s: seq<T>, p: T -> bool): (r: seq<T>)
    ensures |r| <= |s|
    ensures forall i :: 0 <= i < |r| ==> p(r[i])
    decreases |s|
  {
    if s == [] then []
    else if p(s[0]) then [s[0]] + Filter(s[1..], p)
    else Filter(s[1..], p)
  }

  lemma {:induction false} FilterIsSubsequence<T>(s: seq<T>, p: T -> bool)
    ensures IsSubsequence(Filter(s, p), s)
    decreases |s|
  {
    if s != [] {
      FilterIsSubsequence(s[1..], p);
      if !p(s[0]) {
        var r := Filter(s[1..], p);
        SubsequenceOfTail(r, s);
      }
    }
  }

  /** A subsequence of the tail of `ys` is a subsequence of `ys`. */
  lemma {:induction false} SubsequenceOfTail<T>(xs: seq<T>, ys: seq<T>)
    requires ys != [] && IsSubsequence(xs, ys[1..])
    ensures IsSubsequence(xs, ys)
    decreases |ys|, 0
  {
    if xs != [] && xs[0] == ys[0] {
      SubsequenceDropHead(xs, ys[1..]);
    }
  }

  /** Dropping the first element of a subsequence leaves a subsequence. */
  lemma {:induction false} SubsequenceDropHead<T>(xs: seq<T>, zs: seq<T>)
    requires xs != [] && IsSubsequence(xs, zs)
    ensures IsSubsequence(xs[1..], zs)
    decreases |zs|, 1
  {
    if xs[0] == zs[0] {
      SubsequenceOfTail(xs[1..], zs);
    } else {
      SubsequenceDropHead(xs, zs[1..]);
      SubsequenceOfTail(xs[1..], zs);
    }
  }

  /** An element is selected exactly when it is in `s` and satisfies `p`. */
  lemma {:induction false} FilterMembers<T>(s: seq<T>, p: T -> bool, x: T)
    ensures x in Filter(s, p) <==> x in s && p(x)
    decreases |s|
  {
    if s != [] {
      FilterMembers(s[1..], p, x);
      assert s == [s[0]] + s[1..];
    }
  }

  lemma {:induction false} FilterConcat<T>(a: seq<T>, b: seq<T>, p: T -> bool)
    ensures Filter(a + b, p) == Filter(a, p) + Filter(b, p)
    decreases |a|
  {
    if a != [] {
      FilterConcat(a[1..], b, p);
      assert (a + b)[0] == a[0] && (a + b)[1..] == a[1..] + b;
    } else {
      assert a + b == b;
    }
  }

  /** Filtering a sequence with one more element at the end. */
  lemma FilterSnoc<T>(s: seq<T>, x: T, p: T -> bool)
    ensures Filter(s + [x], p) == if p(x) then Filter(s, p) + [x] else Filter(s, p)
  {
    FilterConcat(s, [x], p);
    assert [x][1..] == [];
  }

  lemma SnocInjective<T>(s: seq<T>, x: T, t: seq<T>, y: T)
    requires s + [x] == t + [y]
    ensures s == t && x == y
  {
    assert s == (s + [x])[..|s|] && t == (t + [y])[..|t|];
    assert x == (s + [x])[|s|] && y == (t + [y])[|t|];
  }

  /** A non-empty sequence is its prefix followed by its last element. */
  lemma SnocSplit<T>(s: seq<T>)
    requires s != []
    ensures s == s[..|s| - 1] + [s[|s| - 1]]
  {
  }

  /** Non-empty sequences with the same prefix and last element are equal. */
  lemma SameInitLast<T>(s: seq<T>, t: seq<T>)
    requires s != [] && t != []
    requires s[..|s| - 1] == t[..|t| - 1] && s[|s| - 1] == t[|t| - 1]
    ensures s == t
  {
    SnocSplit(s);
    SnocSplit(t);
  }

  /** Dropping the head of a prefix is taking a prefix of the tail. */
  lemma SliceCommutes<T>(s: seq<T>, n: int)
    requires 1 <= n <= |s|
    ensures s[..n][0] == s[0] && s[..n][1..] == s[1..][..n - 1]
  {
  }

  /** A sequence is what precedes position `i`, the element there, and
      what follows. */
  lemma SplitAt<T>(s: seq<T>, i: int)
    requires 0 <= i < |s|
    ensures s == s[..i] + [s[i]] + s[i + 1..]
  {
  }

  /** Updating position `i` leaves what precedes and follows it alone. */
  lemma UpdateAt<T>(s: seq<T>, i: int, x: T)
    requires 0 <= i < |s|
    ensures s[i := x][..i] == s[..i] && s[i := x][i] == x && s[i := x][i + 1..] == s[i + 1..]
  {
  }
}

=== FILE: sort_lemmas.dfy ===
/** What a caller of the two sorts can rely on, and where the source's
    reading of the directions departs from the validated one. */
module SortLemmas {
  import opened Wrappers
  import opened PhpStrings
  import opened Values
  import opened Seqs
  import opened Comparators
  import opened StableSort
  import opened Sorting

  /* ------------------------------------------------------- values moved */

  lemma ValuesOfConcat(a: seq<Entry>, b: seq<Entry>)
    ensures ValuesOf(a + b) == ValuesOf(a) + ValuesOf(b)
  {
  }

  lemma ValuesSnoc(a: seq<Entry>, e: Entry)
    ensures multiset(ValuesOf(a + [e])) == multiset(ValuesOf(a)) + multiset{e.val}
  {
    ValuesOfConcat(a, [e]);
  }

  lemma SnocValues(a: seq<Entry>, b: seq<Entry>, e: Entry, v: Value)
    requires multiset(ValuesOf(a)) == multiset(ValuesOf(b)) + multiset{v}
    ensures multiset(ValuesOf(a + [e])) == multiset(ValuesOf(b + [e])) + multiset{v}
  {
    ValuesSnoc(a, e);
    ValuesSnoc(b, e);
  }

  lemma {:induction false} InsertValues(x: Entry, s: seq<Entry>, orders: seq<Order>)
    ensures multiset(ValuesOf(Insert(x, s, orders))) == multiset(ValuesOf(s)) + multiset{x.val}
    decreases |s|, 1
  {
    if s != [] {
      if Compare(s[|s| - 1].val, x.val, orders) <= 0 {
        ValuesSnoc(s, x);
      } else {
        InsertValuesShifted(x, s, orders);
      }
    }
  }

  lemma {:induction false} InsertValuesShifted(x: Entry, s: seq<Entry>, orders: seq<Order>)
    requires s != [] && Compare(s[|s| - 1].val, x.val, orders) > 0
    ensures multiset(ValuesOf(Insert(x, s, orders))) == multiset(ValuesOf(s)) + multiset{x.val}
    decreases |s|, 0
  {
    var last := s[|s| - 1];
    var init := s[..|s| - 1];
    var ins := Insert(x, init, orders);
    assert Insert(x, s, orders) == ins + [last];
    InsertValues(x, init, orders);
    SnocValues(ins, init, last, x.val);
    SnocSplit(s);
  }

  lemma {:induction false} SortEntriesValues(s: seq<Entry>, orders: seq<Order>)
    ensures multiset(ValuesOf(SortEntries(s, orders))) == multiset(ValuesOf(s))
    decreases |s|
  {
    if s != [] {
      var init := s[..|s| - 1];
      var last := s[|s| - 1];
      SnocSplit(s);
      assert SortEntries(s, orders) == Insert(last, SortEntries(init, orders), orders);
      SortEntriesValues(init, orders);
      InsertValues(last, SortEntries(init, orders), orders);
      ValuesSnoc(init, last);
      assert multiset(ValuesOf(s)) == multiset(ValuesOf(init + [last]));
    }
  }

  /** The sorts rearrange and never add, drop or alter a value. `uasort`
      moves each entry whole (key and value) and keeps the next free index;
      `usort` numbers the result 0, 1, ... and its next free index is the
      count. */
  lemma SortRecordsPermutes(arr: PhpArray, orders: seq<Order>, keepKeys: bool)
    ensures var r := SortRecords(arr, orders, keepKeys);
      && |r.entries| == |arr.entries|
      && multiset(ValuesOf(r.entries)) == multiset(ValuesOf(arr.entries))
      && (keepKeys ==> multiset(r.entries) == multiset(arr.entries) && r.nextFree == arr.nextFree)
      && (!keepKeys ==> r.nextFree == |arr.entries|
                        && forall i :: 0 <= i < |r.entries| ==> r.entries[i].key == IK(i))
  {
    var sorted := SortEntries(arr.entries, orders);
    SortEntriesValues(arr.entries, orders);
    assert |multiset(sorted)| == |multiset(arr.entries)|;
    if !keepKeys {
      assert ValuesOf(ListOf(ValuesOf(sorted)).entries) == ValuesOf(sorted);
    }
  }

  /** The result is ordered by the comparator. */
  lemma SortRecordsSorted(arr: PhpArray, orders: seq<Order>, keepKeys: bool)
    ensures Sorted(SortRecords(arr, orders, keepKeys).entries, orders)
  {
    var sorted := SortEntries(arr.entries, orders);
    SortEntriesSorted(arr.entries, orders);
    if !keepKeys {
      var r := ListOf(ValuesOf(sorted)).entries;
      assert forall i :: 0 <= i < |r| ==> r[i].val == sorted[i].val;
    }
  }

  /** Filtering by a tie class depends only on the values. */
  lemma {:induction false} FilterTiedValues(s: seq<Entry>, t: seq<Entry>, k: Value, orders: seq<Order>)
    requires ValuesOf(s) == ValuesOf(t)
    ensures ValuesOf(Filter(s, TiedWith(k, orders))) == ValuesOf(Filter(t, TiedWith(k, orders)))
    decreases |s|
  {
    if s != [] {
      ValuesOfTail(s, t);
      FilterTiedValues(s[1..], t[1..], k, orders);
      var p := TiedWith(k, orders);
      assert p(s[0]) == p(t[0]);
      if p(s[0]) {
        ValuesOfConcat([s[0]], Filter(s[1..], p));
        ValuesOfConcat([t[0]], Filter(t[1..], p));
      }
    }
  }

  /** Sequences of entries with the same values agree on the first value
      and on the values of the rest. */
  lemma ValuesOfTail(s: seq<Entry>, t: seq<Entry>)
    requires s != [] && ValuesOf(s) == ValuesOf(t)
    ensures t != [] && s[0].val == t[0].val && ValuesOf(s[1..]) == ValuesOf(t[1..])
  {
    assert |t| == |s| && ValuesOf(s)[0] == ValuesOf(t)[0];
    assert forall i :: 0 <= i < |s| - 1 ==> s[1..][i].val == s[i + 1].val && t[1..][i].val == t[i + 1].val;
  }

  /** Stability: the values that compare equal to any `k` come out in the
      order they went in; with `keepKeys` so do their keys. */
  lemma SortRecordsStable(arr: PhpArray, orders: seq<Order>, keepKeys: bool, k: Value)
    ensures var r := SortRecords(arr, orders, keepKeys);
      && ValuesOf(Filter(r.entries, TiedWith(k, orders))) == ValuesOf(Filter(arr.entries, TiedWith(k, orders)))
      && (keepKeys ==> Filter(r.entries, TiedWith(k, orders)) == Filter(arr.entries, TiedWith(k, orders)))
  {
    var sorted := SortEntries(arr.entries, orders);
    SortEntriesStable(arr.entries, orders, k);
    if !keepKeys {
      var r := ListOf(ValuesOf(sorted)).entries;
      assert ValuesOf(r) == ValuesOf(sorted);
      FilterTiedValues(r, sorted, k, orders);
    }
  }

  /** The elements whose criterion fields equal those of `x`. */
  function SameFields(x: Value, orders: seq<Order>): Entry -> bool {
    (e: Entry) => Tied(e.val, x, orders)
  }

  lemma {:induction false} FilterAgree(s: seq<Entry>, p: Entry -> bool, q: Entry -> bool)
    requires forall i :: 0 <= i < |s| ==> p(s[i]) == q(s[i])
    ensures Filter(s, p) == Filter(s, q)
    decreases |s|
  {
    if s != [] {
      assert forall i :: 0 <= i < |s| - 1 ==> s[1..][i] == s[i + 1];
      FilterAgree(s[1..], p, q);
    }
  }

  /** On the modelled kinds, comparing equal to `x` is having the same
      criterion fields as `x`. */
  lemma {:induction false} TiedIsSameFields(s: seq<Entry>, vs: seq<Value>, x: Value, orders: seq<Order>)
    requires ComparableAll(vs, orders) && x in vs
    requires forall i :: 0 <= i < |s| ==> s[i].val in vs
    ensures Filter(s, TiedWith(x, orders)) == Filter(s, SameFields(x, orders))
  {
    forall i | 0 <= i < |s| ensures Compare(s[i].val, x, orders) == 0 <==> Tied(s[i].val, x, orders) {
      CompareZeroIffTied(s[i].val, x, orders);
    }
    FilterAgree(s, TiedWith(x, orders), SameFields(x, orders));
  }

  /** Stability as the caller sees it: on inputs the model covers, the
      elements whose criterion fields all equal those of some element `x`
      keep their input order. */
  lemma SortRecordsKeepsEqualFieldsInOrder(arr: PhpArray, orders: seq<Order>, keepKeys: bool, x: Value)
    requires ComparableAll(ValuesOf(arr.entries), orders) && x in ValuesOf(arr.entries)
    ensures var r := SortRecords(arr, orders, keepKeys);
      ValuesOf(Filter(r.entries, SameFields(x, orders))) == ValuesOf(Filter(arr.entries, SameFields(x, orders)))
  {
    var r := SortRecords(arr, orders, keepKeys);
    var vs := ValuesOf(arr.entries);
    SortRecordsStable(arr, orders, keepKeys, x);
    SortRecordsValuesIn(arr, orders, keepKeys);
    TiedIsSameFields(r.entries, vs, x, orders);
    TiedIsSameFields(arr.entries, vs, x, orders);
  }

  /** Every value of the sorted result is a value of the input. */
  lemma SortRecordsValuesIn(arr: PhpArray, orders: seq<Order>, keepKeys: bool)
    ensures var r := SortRecords(arr, orders, keepKeys);
      forall i :: 0 <= i < |r.entries| ==> r.entries[i].val in ValuesOf(arr.entries)
  {
    var r := SortRecords(arr, orders, keepKeys);
    SortRecordsPermutes(arr, orders, keepKeys);
    forall i | 0 <= i < |r.entries| ensures r.entries[i].val in ValuesOf(arr.entries) {
      assert r.entries[i].val == ValuesOf(r.entries)[i];
      assert r.entries[i].val in multiset(ValuesOf(r.entries));
    }
  }

  /** With keys kept, the result is the only arrangement of the entries
      that is sorted and keeps every class of equal entries in input order. */
  lemma SortRecordsIsTheStableSort(arr: PhpArray, orders: seq<Order>, r: seq<Entry>)
    requires Sorted(r, orders)
    requires forall k :: Filter(r, TiedWith(k, orders)) == Filter(arr.entries, TiedWith(k, orders))
    ensures SortRecords(arr, orders, true) == PhpArray(r, arr.nextFree)
  {
    StableSortIsUnique(arr.entries, r, orders);
  }

  /* --------------------------------------------------- direction reading */

  lemma LowerExact()
    ensures ToLower("asc") == "asc" && ToLower("ASC") == "asc"
  {
    assert ToLower("asc") == ['a', 's', 'c'] == "asc";
    assert ToLower("ASC") == ['a', 's', 'c'] == "asc";
  }

  /** For a valid direction, the source's reading agrees with the intended
      one exactly unless the direction is a mixed-case spelling of "asc". */
  lemma AsWrittenAgreesUnlessMixedCaseAsc(c: Criterion)
    requires ValidDirection(c.direction)
    ensures AsWritten(c) == Intended(c) <==>
      !(ToLower(c.direction) == "asc" && c.direction != "asc" && c.direction != "ASC")
  {
    LowerExact();
  }

  /** The two readings give the same sort whenever every direction is
      spelt "asc", "ASC" or a spelling of "desc". */
  lemma AsWrittenSortsAsIntended(cs: seq<Criterion>)
    requires forall i :: 0 <= i < |cs| ==>
      cs[i].direction in {"asc", "ASC"} || ToLower(cs[i].direction) == "desc"
    ensures Resolve(cs, AsWritten) == Resolve(cs, Intended)
  {
    LowerExact();
    forall i | 0 <= i < |cs| ensures AsWritten(cs[i]) == Intended(cs[i]) {
      if ToLower(cs[i].direction) == "desc" {
        assert cs[i].direction != "asc" && cs[i].direction != "ASC";
      }
    }
  }

  /** Two entries stay in place unless the first compares greater. */
  lemma SortTwo(a: Entry, b: Entry, orders: seq<Order>)
    ensures SortEntries([a, b], orders) == if Compare(a.val, b.val, orders) <= 0 then [a, b] else [b, a]
  {
    assert [a, b][..1] == [a] && [a, b][1] == b;
    SortOne(a, orders);
    InsertIntoOne(b, a, orders);
  }

  lemma SortOne(a: Entry, orders: seq<Order>)
    ensures SortEntries([a], orders) == [a]
  {
    assert [a][..0] == [];
  }

  lemma InsertIntoOne(x: Entry, a: Entry, orders: seq<Order>)
    ensures Insert(x, [a], orders) == if Compare(a.val, x.val, orders) <= 0 then [a, x] else [x, a]
  {
    assert [a][..0] == [];
  }

  /** "Asc" passes validation, yet the source sorts it descending: objects
      with `n` = 2 and `n` = 1 stay in the order 2, 1, where the validated
      reading puts them in the order 1, 2. */
  lemma MixedCaseAscSortsDescending()
    ensures var lo := Entry(IK(1), Obj("T", {}, map["n" := Int(1)]));
            var hi := Entry(IK(0), Obj("T", {}, map["n" := Int(2)]));
            var c := Criterion("n", "Asc");
            && ValidDirection(c.direction)
            && SortEntries([hi, lo], [AsWritten(c)]) == [hi, lo]
            && SortEntries([hi, lo], [Intended(c)]) == [lo, hi]
  {
    var lo := Entry(IK(1), Obj("T", {}, map["n" := Int(1)]));
    var hi := Entry(IK(0), Obj("T", {}, map["n" := Int(2)]));
    var c := Criterion("n", "Asc");
    assert ToLower("Asc") == ['a', 's', 'c'];
    assert AsWritten(c) == Order("n", false);
    assert Intended(c) == Order("n", true);
    assert FieldOf(lo.val, "n") == Int(1) && FieldOf(hi.val, "n") == Int(2);
    assert Compare(hi.val, lo.val, [Order("n", false)]) == -1;
    assert Compare(hi.val, lo.val, [Order("n", true)]) == 1;
    SortTwo(hi, lo, [Order("n", false)]);
    SortTwo(hi, lo, [Order("n", true)]);
  }

  /** The same through `sortObjectsArrayByPropertyAndDirection` itself: with
      the pair ["n", "Asc"] the source returns the objects with `n` = 2 and
      `n` = 1 in that order, where the validated reading returns 1, 2. */
  lemma MixedCaseAscSortObjects()
    ensures var hi := Obj("T", {}, map["n" := Int(2)]);
            var lo := Obj("T", {}, map["n" := Int(1)]);
            var arr := ListOf([hi, lo]);
            var pairs := ListOf([Arr(ListOf([Str("n"), Str("Asc")]))]);
            && ObjectDomain(arr, pairs, AsWritten) && ObjectDomain(arr, pairs, Intended)
            && SortObjects(arr, pairs, false) == Success(ListOf([hi, lo]))
            && SortObjectsIntended(arr, pairs, false) == Success(ListOf([lo, hi]))
  {
    var hi := Obj("T", {}, map["n" := Int(2)]);
    var lo := Obj("T", {}, map["n" := Int(1)]);
    var arr := ListOf([hi, lo]);
    var pairs := ListOf([Arr(ListOf([Str("n"), Str("Asc")]))]);
    AscPairCriteria(arr, pairs);
    var c := Criterion("n", "Asc");
    AscPairDomain(arr, pairs, AsWritten);
    AscPairDomain(arr, pairs, Intended);
    var w := ObjectSort(arr, pairs, false, AsWritten);
    var i := ObjectSort(arr, pairs, false, Intended);
    assert w == Success(SortRecords(arr, Resolve([c], AsWritten), false));
    assert i == Success(SortRecords(arr, Resolve([c], Intended), false));
    AscPairSorts(hi, lo);
  }

  /** The pair ["n", "Asc"] validates against a first element with an `n`. */
  lemma AscPairCriteria(arr: PhpArray, pairs: PhpArray)
    requires arr.entries != [] && arr.entries[0].val.Obj? && "n" in arr.entries[0].val.fields
    requires pairs == ListOf([Arr(ListOf([Str("n"), Str("Asc")]))])
    ensures ObjectCriteria(arr, pairs) == Success([Criterion("n", "Asc")])
  {
    var pair := Arr(ListOf([Str("n"), Str("Asc")]));
    var c := Criterion("n", "Asc");
    assert ToLower("Asc") == ['a', 's', 'c'];
    assert Lookup(pair.a, IK(0)) == Some(Str("n"));
    assert Lookup(pair.a, IK(1)) == Some(Str("Asc"));
    assert ObjectPair(pair, arr.entries[0].val) == Success(c);
    assert ValuesOf(pairs.entries) == [pair];
    var cs := ObjectCriteria(arr, pairs);
    assert cs.Success? && |cs.value| == 1 && cs.value[0] == c;
    assert cs.value == [c];
  }

  /** Two objects with an integer `n` are comparable under that pair. */
  lemma AscPairDomain(arr: PhpArray, pairs: PhpArray, resolve: Criterion -> Order)
    requires arr == ListOf([Obj("T", {}, map["n" := Int(2)]), Obj("T", {}, map["n" := Int(1)])])
    requires ObjectCriteria(arr, pairs) == Success([Criterion("n", "Asc")])
    requires resolve(Criterion("n", "Asc")).field == "n"
    ensures ObjectDomain(arr, pairs, resolve)
  {
    var hi, lo := Obj("T", {}, map["n" := Int(2)]), Obj("T", {}, map["n" := Int(1)]);
    var c := Criterion("n", "Asc");
    ListOfTwo(hi, lo);
    ValuesOfTwo(Entry(IK(0), hi), Entry(IK(1), lo));
    assert Resolve([c], resolve) == [resolve(c)];
    IntFieldsComparable(hi, lo, resolve(c));
    DomainFromCriteria(arr, pairs, resolve, [c]);
  }

  /** `ObjectDomain` from its parts, once the criteria are known. */
  lemma DomainFromCriteria(arr: PhpArray, pairs: PhpArray, resolve: Criterion -> Order, cs: seq<Criterion>)
    requires arr.entries != [] && ObjectCriteria(arr, pairs) == Success(cs)
    requires AllObjects(arr.entries) && ComparableAll(ValuesOf(arr.entries), Resolve(cs, resolve))
    ensures ObjectDomain(arr, pairs, resolve)
  {
  }

  /** Two values whose criterion field holds an integer in both are comparable. */
  lemma IntFieldsComparable(x: Value, y: Value, o: Order)
    requires FieldOf(x, o.field).Int? && FieldOf(y, o.field).Int?
    ensures ComparableAll([x, y], [o])
  {
  }

  /** `usort` of that pair of objects, under each reading of "Asc". */
  lemma AscPairSorts(hi: Value, lo: Value)
    requires hi == Obj("T", {}, map["n" := Int(2)]) && lo == Obj("T", {}, map["n" := Int(1)])
    ensures SortRecords(ListOf([hi, lo]), Resolve([Criterion("n", "Asc")], AsWritten), false) == ListOf([hi, lo])
    ensures SortRecords(ListOf([hi, lo]), Resolve([Criterion("n", "Asc")], Intended), false) == ListOf([lo, hi])
  {
    var c := Criterion("n", "Asc");
    assert ToLower("Asc") == ['a', 's', 'c'];
    assert Resolve([c], AsWritten) == [Order("n", false)];
    assert Resolve([c], Intended) == [Order("n", true)];
    assert FieldOf(hi, "n") == Int(2) && FieldOf(lo, "n") == Int(1);
    assert Compare(hi, lo, [Order("n", false)]) == -1;
    assert Compare(hi, lo, [Order("n", true)]) == 1;
    SortRecordsTwoKeeps(hi, lo, [Order("n", false)]);
    SortRecordsTwoSwaps(hi, lo, [Order("n", true)]);
  }

  /** `usort` keeps a two-element list whose first value does not compare greater. */
  lemma SortRecordsTwoKeeps(x: Value, y: Value, orders: seq<Order>)
    requires Compare(x, y, orders) <= 0
    ensures SortRecords(ListOf([x, y]), orders, false) == ListOf([x, y])
  {
    var a, b := Entry(IK(0), x), Entry(IK(1), y);
    ListOfTwo(x, y);
    SortTwo(a, b, orders);
    ValuesOfTwo(a, b);
  }

  /** `usort` swaps a two-element list whose first value compares greater. */
  lemma SortRecordsTwoSwaps(x: Value, y: Value, orders: seq<Order>)
    requires Compare(x, y, orders) > 0
    ensures SortRecords(ListOf([x, y]), orders, false) == ListOf([y, x])
  {
    var a, b := Entry(IK(0), x), Entry(IK(1), y);
    ListOfTwo(x, y);
    SortTwo(a, b, orders);
    ValuesOfTwo(b, a);
  }

  /** The entries of a two-element list. */
  lemma ListOfTwo(x: Value, y: Value)
    ensures ListOf([x, y]).entries == [Entry(IK(0), x), Entry(IK(1), y)]
  {
  }

  /** The values of two entries. */
  lemma ValuesOfTwo(a: Entry, b: Entry)
    ensures ValuesOf([a, b]) == [a.val, b.val]
  {
    var vs := ValuesOf([a, b]);
    assert vs[0] == a.val && vs[1] == b.val;
  }
}

=== FILE: sorting.dfy ===
/** `Arrays::sortArraysArrayByKeyAndDirection` and
    `Arrays::sortObjectsArrayByPropertyAndDirection`: validate the list of
    (field, direction) pairs, then sort with `usort` (re-indexed) or
    `uasort` (keys kept) using the lexicographic comparator of
    `Comparators`.

    Both comparators treat a direction as ascending only when it is exactly
    "asc" or "ASC", although validation accepts any capitalisation. Both
    readings are modelled: `AsWritten` is the source's, `Intended` the
    case-insensitive one that validation promises; `SortArrays` and
    `SortObjects` read directions as the source does, the `...Intended`
    variants as validation promises. */
module Sorting {
  import opened Wrappers
  import opened PhpStrings
  import opened Values
  import opened Seqs
  import opened Comparators
  import opened StableSort

  /* ----------------------------------------------------------- validation */

  /** `in_array(strtolower($d), ['asc', 'desc'])`. */
  predicate ValidDirection(d: string) {
    ToLower(d) == "asc" || ToLower(d) == "desc"
  }

  /** One `$pair` of the criteria list. Checks run in the source's order:
      an array of exactly two elements whose element 0 is a string, else
      `invalid`; then element 1 goes to `strtolower`, which under strict
      types throws a TypeError unless it is a string (a missing element
      reads as null); then the direction must be valid. */
  function CheckPair(pair: Value, invalid: Error): (r: Result<Criterion, Error>)
    ensures r.Failure? ==> r.error == invalid || r.error == TypeError
    ensures r.Success? <==>
      && pair.Arr? && |pair.a.entries| == 2
      && Lookup(pair.a, IK(0)).Some? && Lookup(pair.a, IK(0)).value.Str?
      && Lookup(pair.a, IK(1)).Some? && Lookup(pair.a, IK(1)).value.Str?
      && ValidDirection(Lookup(pair.a, IK(1)).value.s)
    ensures r.Success? ==>
      && Lookup(pair.a, IK(0)) == Some(Str(r.value.field))
      && Lookup(pair.a, IK(1)) == Some(Str(r.value.direction))
    ensures r.Failure? && r.error != invalid ==>
      pair.Arr? && !(Lookup(pair.a, IK(1)).Some? && Lookup(pair.a, IK(1)).value.Str?)
  {
    if !pair.Arr? || |pair.a.entries| != 2 then Failure(invalid)
    else match Lookup(pair.a, IK(0))
      case Some(Str(field)) =>
        (match Lookup(pair.a, IK(1))
         case Some(Str(d)) => if ValidDirection(d) then Success(Criterion(field, d)) else Failure(invalid)
         case _ => Failure(TypeError))
      case _ => Failure(invalid)
  }

  /** A pair of `sortArraysArrayByKeyAndDirection`. */
  function ArrayPair(pair: Value): Result<Criterion, Error> {
    CheckPair(pair, InvalidKeyDirectionPair)
  }

  /** A pair of `sortObjectsArrayByPropertyAndDirection`: valid as above,
      and then the property must exist on the first element. */
  function ObjectPair(pair: Value, first: Value): (r: Result<Criterion, Error>)
    ensures r.Success? <==> CheckPair(pair, InvalidPropertyDirectionPair).Success?
                            && first.Obj? && CheckPair(pair, InvalidPropertyDirectionPair).value.field in first.fields
  {
    match CheckPair(pair, InvalidPropertyDirectionPair)
    case Failure(e) => Failure(e)
    case Success(c) =>
      if first.Obj? && c.field in first.fields then Success(c) else Failure(PropertyNotFound(c.field))
  }

  /** The `foreach` over the pairs: the first pair that fails decides the
      error; otherwise every pair yields its criterion, in order. */
  function ValidateAll(pairs: seq<Value>, check: Value -> Result<Criterion, Error>): (r: Result<seq<Criterion>, Error>)
    ensures r.Success? <==> forall i :: 0 <= i < |pairs| ==> check(pairs[i]).Success?
    ensures r.Success? ==> |r.value| == |pairs| && forall i :: 0 <= i < |pairs| ==> r.value[i] == check(pairs[i]).value
    ensures r.Failure? ==> exists i :: 0 <= i < |pairs| && check(pairs[i]) == Failure(r.error)
                                       && forall j :: 0 <= j < i ==> check(pairs[j]).Success?
    decreases |pairs|
  {
    if pairs == [] then Success([])
    else match check(pairs[0])
      case Failure(e) => Failure(e)
      case Success(c) =>
        match ValidateAll(pairs[1..], check)
        case Failure(e) =>
          ghost var i :| 0 <= i < |pairs[1..]| && check(pairs[1..][i]) == Failure(e)
                        && forall j :: 0 <= j < i ==> check(pairs[1..][j]).Success?;
          assert check(pairs[i + 1]) == Failure(e);
          assert forall j :: 0 <= j < i + 1 ==> check(pairs[j]).Success? by {
            forall j | 0 <= j < i + 1 ensures check(pairs[j]).Success? {
              if j > 0 {
                assert pairs[j] == pairs[1..][j - 1];
              }
            }
          }
          Failure(e)
        case Success(cs) =>
          assert forall i :: 1 <= i < |pairs| ==> pairs[i] == pairs[1..][i - 1];
          Success([c] + cs)
  }

  /* ------------------------------------------------------------ direction */

  /** `$order == 'asc' || $order == 'ASC'`, the comparators' test. */
  predicate IsAscending(d: string) {
    d == "asc" || d == "ASC"
  }

  /** The comparators' reading of a criterion. */
  function AsWritten(c: Criterion): Order {
    Order(c.field, IsAscending(c.direction))
  }

  /** The reading validation promises: the capitalisation does not matter. */
  function Intended(c: Criterion): Order {
    Order(c.field, ToLower(c.direction) == "asc")
  }

  function Resolve(cs: seq<Criterion>, resolve: Criterion -> Order): (r: seq<Order>)
    ensures |r| == |cs|
    ensures forall i :: 0 <= i < |cs| ==> r[i] == resolve(cs[i])
  {
    seq(|cs|, i requires 0 <= i < |cs| => resolve(cs[i]))
  }

  /* -------------------------------------------------------------- sorting */

  /** `usort` re-indexes the sorted values as a list; `uasort` keeps each
      value with its key and keeps the next free index. */
  function SortRecords(arr: PhpArray, orders: seq<Order>, keepKeys: bool): PhpArray {
    var sorted := SortEntries(arr.entries, orders);
    if keepKeys then PhpArray(sorted, arr.nextFree) else ListOf(ValuesOf(sorted))
  }

  /** Every pair of values has criterion fields of the same modelled kind. */
  predicate ComparableAll(vs: seq<Value>, orders: seq<Order>) {
    forall v, w :: v in vs && w in vs ==> Comparable(v, w, orders)
  }

  predicate AllArrays(es: seq<Entry>) {
    forall i :: 0 <= i < |es| ==> es[i].val.Arr?
  }

  predicate AllObjects(es: seq<Entry>) {
    forall i :: 0 <= i < |es| ==> es[i].val.Obj?
  }

  /** The inputs whose comparisons the model covers: once the pairs are
      valid and there are two or more array elements to compare, their
      criterion fields are integers or strings of matching kinds. */
  predicate ArrayDomain(arr: PhpArray, keyDirection: PhpArray, resolve: Criterion -> Order) {
    var cs := ValidateAll(ValuesOf(keyDirection.entries), ArrayPair);
    cs.Success? && |arr.entries| >= 2 && AllArrays(arr.entries) ==>
      ComparableAll(ValuesOf(arr.entries), Resolve(cs.value, resolve))
  }

  /** The body of `sortArraysArrayByKeyAndDirection` for a given reading
      of the directions. The comparator's `array $a, array $b` parameters
      make a non-array element a TypeError as soon as two elements are
      compared. */
  function ArraySort(arr: PhpArray, keyDirection: PhpArray, keepKeys: bool, resolve: Criterion -> Order)
    : (r: Result<PhpArray, Error>)
    requires ArrayDomain(arr, keyDirection, resolve)
    ensures r == Failure(EmptyArrayToSort) <==> arr.entries == []
    ensures r.Failure? ==> r.error in {EmptyArrayToSort, InvalidKeyDirectionPair, TypeError}
    ensures r.Success? <==>
      && arr.entries != []
      && ValidateAll(ValuesOf(keyDirection.entries), ArrayPair).Success?
      && (|arr.entries| >= 2 ==> AllArrays(arr.entries))
    ensures r.Success? ==>
      r.value == SortRecords(arr, Resolve(ValidateAll(ValuesOf(keyDirection.entries), ArrayPair).value, resolve), keepKeys)
  {
    if arr.entries == [] then Failure(EmptyArrayToSort)
    else match ValidateAll(ValuesOf(keyDirection.entries), ArrayPair)
      case Failure(e) =>
        assert e == InvalidKeyDirectionPair || e == TypeError;
        Failure(e)
      case Success(cs) =>
        if |arr.entries| >= 2 && !AllArrays(arr.entries) then Failure(TypeError)
        else Success(SortRecords(arr, Resolve(cs, resolve), keepKeys))
  }

  /** `Arrays::sortArraysArrayByKeyAndDirection` with the directions read
      as validation accepts them. */
  function SortArraysIntended(arr: PhpArray, keyDirection: PhpArray, keepKeys: bool): (r: Result<PhpArray, Error>)
    requires ArrayDomain(arr, keyDirection, Intended)
  {
    ArraySort(arr, keyDirection, keepKeys, Intended)
  }

  /** `Arrays::sortArraysArrayByKeyAndDirection`, reading the directions
      as its comparator does. */
  function SortArrays(arr: PhpArray, keyDirection: PhpArray, keepKeys: bool): (r: Result<PhpArray, Error>)
    requires ArrayDomain(arr, keyDirection, AsWritten)
  {
    ArraySort(arr, keyDirection, keepKeys, AsWritten)
  }

  /** The checks of `sortObjectsArrayByPropertyAndDirection` against its
      first element. */
  function ObjectCriteria(arr: PhpArray, propertyDirection: PhpArray): Result<seq<Criterion>, Error>
    requires arr.entries != []
  {
    var first := arr.entries[0].val;
    ValidateAll(ValuesOf(propertyDirection.entries), (p: Value) => ObjectPair(p, first))
  }

  /** Once the first element is an object and the pairs are valid for it,
      every element is an object whose criterion fields are integers or
      strings of matching kinds. */
  predicate ObjectDomain(arr: PhpArray, propertyDirection: PhpArray, resolve: Criterion -> Order) {
    arr.entries != [] && arr.entries[0].val.Obj? && |arr.entries| >= 2
    && ObjectCriteria(arr, propertyDirection).Success? ==>
      && AllObjects(arr.entries)
      && ComparableAll(ValuesOf(arr.entries), Resolve(ObjectCriteria(arr, propertyDirection).value, resolve))
  }

  /** The body of `sortObjectsArrayByPropertyAndDirection` for a given
      reading of the directions. Only the first element is checked for
      being an object and for having the properties. */
  function ObjectSort(arr: PhpArray, propertyDirection: PhpArray, keepKeys: bool, resolve: Criterion -> Order)
    : (r: Result<PhpArray, Error>)
    requires ObjectDomain(arr, propertyDirection, resolve)
    ensures r == Failure(EmptyObjectArrayToSort) <==> arr.entries == []
    ensures r == Failure(ElementsMustBeObjects) <==> arr.entries != [] && !arr.entries[0].val.Obj?
    ensures r.Failure? ==> r.error in {EmptyObjectArrayToSort, ElementsMustBeObjects,
                                       InvalidPropertyDirectionPair, TypeError}
                           || r.error.PropertyNotFound?
    ensures r.Failure? && r.error.PropertyNotFound? ==> !(r.error.name in arr.entries[0].val.fields)
    ensures r.Success? <==>
      && arr.entries != [] && arr.entries[0].val.Obj?
      && ObjectCriteria(arr, propertyDirection).Success?
    ensures r.Success? ==>
      r.value == SortRecords(arr, Resolve(ObjectCriteria(arr, propertyDirection).value, resolve), keepKeys)
  {
    if arr.entries == [] then Failure(EmptyObjectArrayToSort)
    else if !arr.entries[0].val.Obj? then Failure(ElementsMustBeObjects)
    else match ObjectCriteria(arr, propertyDirection)
      case Failure(e) => Failure(e)
      case Success(cs) => Success(SortRecords(arr, Resolve(cs, resolve), keepKeys))
  }

  /** `Arrays::sortObjectsArrayByPropertyAndDirection` with the directions
      read as validation accepts them. */
  function SortObjectsIntended(arr: PhpArray, propertyDirection: PhpArray, keepKeys: bool): (r: Result<PhpArray, Error>)
    requires ObjectDomain(arr, propertyDirection, Intended)
  {
    ObjectSort(arr, propertyDirection, keepKeys, Intended)
  }

  /** `Arrays::sortObjectsArrayByPropertyAndDirection`, reading the
      directions as its comparator does. */
  function SortObjects(arr: PhpArray, propertyDirection: PhpArray, keepKeys: bool): (r: Result<PhpArray, Error>)
    requires ObjectDomain(arr, propertyDirection, AsWritten)
  {
    ObjectSort(arr, propertyDirection, keepKeys, AsWritten)
  }
}

=== FILE: stable_sort.dfy ===
/** The stable sort behind `usort`/`uasort` (stable since PHP 8.0), as an
    insertion sort over the array's entries, with the three facts a
    caller relies on: the result is a permutation, it is ordered by the
    comparator, and entries that compare equal keep their relative order.
    Any sequence with the last two properties is this one, so the choice of
    insertion sort does not matter. */
module StableSort {
  import opened Values
  import opened Seqs
  import opened Comparators

  /** Ordered by the comparator: no entry compares greater than a later one. */
  predicate Sorted(s: seq<Entry>, orders: seq<Order>) {
    forall i, j :: 0 <= i < j < |s| ==> Compare(s[i].val, s[j].val, orders) <= 0
  }

  /** Insert `x` after every entry that does not compare greater than it,
      scanning from the end. */
  function Insert(x: Entry, s: seq<Entry>, orders: seq<Order>): (r: seq<Entry>)
    ensures multiset(r) == multiset(s) + multiset{x}
    decreases |s|
  {
    if s == [] then [x]
    else
      var last := s[|s| - 1];
      var init := s[..|s| - 1];
      SnocSplit(s);
      if Compare(last.val, x.val, orders) <= 0 then s + [x]
      else Insert(x, init, orders) + [last]
  }

  /** Insertion sort: sort all but the last entry, then insert it. */
  function SortEntries(s: seq<Entry>, orders: seq<Order>): (r: seq<Entry>)
    ensures multiset(r) == multiset(s)
    decreases |s|
  {
    if s == [] then []
    else
      SnocSplit(s);
      Insert(s[|s| - 1], SortEntries(s[..|s| - 1], orders), orders)
  }

  /** Every entry of `s` compares at most `b`. */
  predicate AtMost(s: seq<Entry>, b: Entry, orders: seq<Order>) {
    forall i :: 0 <= i < |s| ==> Compare(s[i].val, b.val, orders) <= 0
  }

  lemma SortedAppend(s: seq<Entry>, x: Entry, orders: seq<Order>)
    requires Sorted(s, orders) && AtMost(s, x, orders)
    ensures Sorted(s + [x], orders)
  {
  }

  lemma AtMostPermutation(s: seq<Entry>, t: seq<Entry>, b: Entry, orders: seq<Order>)
    requires AtMost(s, b, orders) && multiset(t) == multiset(s)
    ensures AtMost(t, b, orders)
  {
    forall i | 0 <= i < |t| ensures Compare(t[i].val, b.val, orders) <= 0 {
      assert t[i] in multiset(s);
      var j :| 0 <= j < |s| && s[j] == t[i];
    }
  }

  /** When the last entry of a sorted sequence compares at most `x`, so
      does every entry. */
  lemma SortedAtMost(s: seq<Entry>, x: Entry, orders: seq<Order>)
    requires s != [] && Sorted(s, orders) && Compare(s[|s| - 1].val, x.val, orders) <= 0
    ensures AtMost(s, x, orders)
  {
    forall i | 0 <= i < |s| ensures Compare(s[i].val, x.val, orders) <= 0 {
      if i < |s| - 1 {
        CompareTransitive(s[i].val, s[|s| - 1].val, x.val, orders);
      }
    }
  }

  /** Inserting into a sorted sequence keeps it sorted. */
  lemma {:induction false} InsertSorted(x: Entry, s: seq<Entry>, orders: seq<Order>)
    requires Sorted(s, orders)
    ensures Sorted(Insert(x, s, orders), orders)
    decreases |s|
  {
    if s != [] {
      var last := s[|s| - 1];
      var init := s[..|s| - 1];
      if Compare(last.val, x.val, orders) <= 0 {
        SortedAtMost(s, x, orders);
        SortedAppend(s, x, orders);
      } else {
        InsertSorted(x, init, orders);
        InsertShiftedAtMost(x, s, orders);
        SortedAppend(Insert(x, init, orders), last, orders);
      }
    }
  }

  lemma InsertShiftedAtMost(x: Entry, s: seq<Entry>, orders: seq<Order>)
    requires s != [] && Sorted(s, orders)
    requires Compare(s[|s| - 1].val, x.val, orders) > 0
    ensures AtMost(Insert(x, s[..|s| - 1], orders), s[|s| - 1], orders)
  {
    var last := s[|s| - 1];
    var init := s[..|s| - 1];
    CompareAntisymmetric(last.val, x.val, orders);
    CompareEquivalence(last.val, last.val, last.val, orders);
    assert AtMost(init + [x], last, orders) by {
      forall i | 0 <= i < |init + [x]| ensures Compare((init + [x])[i].val, last.val, orders) <= 0 {
        if i < |init| {
          assert (init + [x])[i] == s[i];
        }
      }
    }
    AtMostPermutation(init + [x], Insert(x, init, orders), last, orders);
  }

  /** The insertion sort's result is sorted. */
  lemma {:induction false} SortEntriesSorted(s: seq<Entry>, orders: seq<Order>)
    ensures Sorted(SortEntries(s, orders), orders)
    decreases |s|
  {
    if s != [] {
      SortEntriesSorted(s[..|s| - 1], orders);
      InsertSorted(s[|s| - 1], SortEntries(s[..|s| - 1], orders), orders);
    }
  }

  /* ------------------------------------------------------------ stability */

  /** The entries that compare equal to `k`. */
  function TiedWith(k: Value, orders: seq<Order>): Entry -> bool {
    (e: Entry) => Compare(e.val, k, orders) == 0
  }

  /** Inserting `x` moves it only past entries that compare greater, none of
      which is tied with it: among the entries tied with any `k`, `x` lands
      last. */
  lemma {:induction false} InsertStable(x: Entry, s: seq<Entry>, orders: seq<Order>, k: Value)
    ensures Filter(Insert(x, s, orders), TiedWith(k, orders)) == Filter(s + [x], TiedWith(k, orders))
    decreases |s|
  {
    var p := TiedWith(k, orders);
    if s != [] {
      var last := s[|s| - 1];
      var init := s[..|s| - 1];
      SnocSplit(s);
      if Compare(last.val, x.val, orders) > 0 {
        InsertStable(x, init, orders, k);
        CompareEquivalence(last.val, k, x.val, orders);
        CompareEquivalence(x.val, k, last.val, orders);
        assert !(p(x) && p(last));
        FilterSnoc(Insert(x, init, orders), last, p);
        FilterSnoc(init, x, p);
        FilterSnoc(init, last, p);
        FilterSnoc(s, x, p);
      }
    }
  }

  /** Stability: for every value `k`, the entries that compare equal to `k`
      appear in the result in the same order as in the input. */
  lemma {:induction false} SortEntriesStable(s: seq<Entry>, orders: seq<Order>, k: Value)
    ensures Filter(SortEntries(s, orders), TiedWith(k, orders)) == Filter(s, TiedWith(k, orders))
    decreases |s|
  {
    if s != [] {
      var init := s[..|s| - 1];
      var last := s[|s| - 1];
      SnocSplit(s);
      SortEntriesStable(init, orders, k);
      var p := TiedWith(k, orders);
      InsertStable(last, SortEntries(init, orders), orders, k);
      FilterConcat(SortEntries(init, orders), [last], p);
      FilterConcat(init, [last], p);
    }
  }

  /* ----------------------------------------------------------- uniqueness */

  /** Two sorted sequences that agree on the order of every class of equal
      entries are the same sequence. */
  lemma {:induction false} SortedStableUnique(r1: seq<Entry>, r2: seq<Entry>, orders: seq<Order>)
    requires Sorted(r1, orders) && Sorted(r2, orders)
    requires forall k :: Filter(r1, TiedWith(k, orders)) == Filter(r2, TiedWith(k, orders))
    ensures r1 == r2
    decreases |r1| + |r2|
  {
    if r1 != [] && r2 != [] {
      SortedStableStep(r1, r2, orders);
      SortedStableUnique(r1[..|r1| - 1], r2[..|r2| - 1], orders);
      SameInitLast(r1, r2);
    } else {
      EmptyAgrees(r1, r2, orders);
    }
  }

  /** One step of the uniqueness argument: the last entries coincide, and
      what precedes them is again sorted and agrees on every class. */
  lemma {:induction false} SortedStableStep(r1: seq<Entry>, r2: seq<Entry>, orders: seq<Order>)
    requires r1 != [] && r2 != [] && Sorted(r1, orders) && Sorted(r2, orders)
    requires forall k :: Filter(r1, TiedWith(k, orders)) == Filter(r2, TiedWith(k, orders))
    ensures r1[|r1| - 1] == r2[|r2| - 1]
    ensures Sorted(r1[..|r1| - 1], orders) && Sorted(r2[..|r2| - 1], orders)
    ensures forall k :: Filter(r1[..|r1| - 1], TiedWith(k, orders)) == Filter(r2[..|r2| - 1], TiedWith(k, orders))
  {
    var a := r1[|r1| - 1];
    var i1 := r1[..|r1| - 1];
    var i2 := r2[..|r2| - 1];
    assert Filter(r1, TiedWith(a.val, orders)) == Filter(r2, TiedWith(a.val, orders));
    assert Filter(r1, TiedWith(r2[|r2| - 1].val, orders)) == Filter(r2, TiedWith(r2[|r2| - 1].val, orders));
    SameLast(r1, r2, orders);
    SnocSplit(r1);
    SnocSplit(r2);
    DropLastAgrees(i1, i2, a, orders);
    SortedPrefix(r1, orders);
    SortedPrefix(r2, orders);
  }

  /** When one of two sequences that agree on every class is empty, so is
      the other: each entry is in its own class. */
  lemma {:induction false} EmptyAgrees(r1: seq<Entry>, r2: seq<Entry>, orders: seq<Order>)
    requires r1 == [] || r2 == []
    requires forall k :: Filter(r1, TiedWith(k, orders)) == Filter(r2, TiedWith(k, orders))
    ensures r1 == r2
  {
    if r1 != [] {
      assert r1[0] in r1;
      SameClassesSameMembers(r1, r2, r1[0], orders);
    } else if r2 != [] {
      assert r2[0] in r2;
      SameClassesSameMembers(r2, r1, r2[0], orders);
    }
  }

  /** Two non-empty sorted sequences that agree on every class end with the
      same entry: each one's last entry is a greatest entry of the other,
      and among the entries tied with it, the last in both. */
  lemma {:induction false} SameLast(r1: seq<Entry>, r2: seq<Entry>, orders: seq<Order>)
    requires r1 != [] && r2 != [] && Sorted(r1, orders) && Sorted(r2, orders)
    requires Filter(r1, TiedWith(r1[|r1| - 1].val, orders)) == Filter(r2, TiedWith(r1[|r1| - 1].val, orders))
    requires Filter(r1, TiedWith(r2[|r2| - 1].val, orders)) == Filter(r2, TiedWith(r2[|r2| - 1].val, orders))
    ensures r1[|r1| - 1] == r2[|r2| - 1]
  {
    var a := r1[|r1| - 1];
    var b := r2[|r2| - 1];
    var i1 := r1[..|r1| - 1];
    var i2 := r2[..|r2| - 1];
    SnocSplit(r1);
    SnocSplit(r2);
    assert a in r1 && b in r2;
    SameClassesSameMembers(r1, r2, a, orders);
    SameClassesSameMembers(r2, r1, b, orders);
    AtMostLast(r2, a, orders);
    AtMostLast(r1, b, orders);
    CompareAntisymmetric(a.val, b.val, orders);
    var pa := TiedWith(a.val, orders);
    CompareEquivalence(a.val, b.val, a.val, orders);
    assert pa(a) && pa(b);
    FilterSnoc(i1, a, pa);
    FilterSnoc(i2, b, pa);
    SnocInjective(Filter(i1, pa), a, Filter(i2, pa), b);
  }

  /** Removing the same last entry from two sequences that agree on every
      class leaves two sequences that still agree on every class. */
  lemma {:induction false} DropLastAgrees(i1: seq<Entry>, i2: seq<Entry>, a: Entry, orders: seq<Order>)
    requires forall k :: Filter(i1 + [a], TiedWith(k, orders)) == Filter(i2 + [a], TiedWith(k, orders))
    ensures forall k :: Filter(i1, TiedWith(k, orders)) == Filter(i2, TiedWith(k, orders))
  {
    forall k ensures Filter(i1, TiedWith(k, orders)) == Filter(i2, TiedWith(k, orders)) {
      var pk := TiedWith(k, orders);
      assert Filter(i1 + [a], pk) == Filter(i2 + [a], pk);
      FilterSnoc(i1, a, pk);
      FilterSnoc(i2, a, pk);
      if pk(a) {
        SnocInjective(Filter(i1, pk), a, Filter(i2, pk), a);
      }
    }
  }

  lemma SortedPrefix(s: seq<Entry>, orders: seq<Order>)
    requires s != [] && Sorted(s, orders)
    ensures Sorted(s[..|s| - 1], orders)
  {
  }

  /** Every entry of a sorted sequence compares at most its last entry. */
  lemma AtMostLast(r: seq<Entry>, a: Entry, orders: seq<Order>)
    requires a in r && Sorted(r, orders)
    ensures Compare(a.val, r[|r| - 1].val, orders) <= 0
  {
    var j :| 0 <= j < |r| && r[j] == a;
    if j == |r| - 1 {
      CompareEquivalence(a.val, a.val, a.val, orders);
    }
  }

  /** An entry of `r1` is an entry of `r2` when they agree on every class. */
  lemma SameClassesSameMembers(r1: seq<Entry>, r2: seq<Entry>, a: Entry, orders: seq<Order>)
    requires a in r1
    requires Filter(r1, TiedWith(a.val, orders)) == Filter(r2, TiedWith(a.val, orders))
    ensures a in r2
  {
    CompareEquivalence(a.val, a.val, a.val, orders);
    FilterMembers(r1, TiedWith(a.val, orders), a);
    FilterMembers(r2, TiedWith(a.val, orders), a);
  }

  /** Any sorted arrangement that keeps every class of equal entries in its
      input order is the one `SortEntries` produces: every stable sort with
      this comparator gives the same result. */
  lemma StableSortIsUnique(s: seq<Entry>, r: seq<Entry>, orders: seq<Order>)
    requires Sorted(r, orders)
    requires forall k :: Filter(r, TiedWith(k, orders)) == Filter(s, TiedWith(k, orders))
    ensures r == SortEntries(s, orders)
  {
    SortEntriesSorted(s, orders);
    forall k ensures Filter(r, TiedWith(k, orders)) == Filter(SortEntries(s, orders), TiedWith(k, orders)) {
      SortEntriesStable(s, orders, k);
    }
    SortedStableUnique(r, SortEntries(s, orders), orders);
  }
}

=== FILE: strings.dfy ===
/** The PHP string primitives the core relies on: `trim`, `explode` and
    `implode`, ASCII `strtolower`, `strcmp`, and the decimal form of an
    integer together with PHP's rule for which strings are integer keys.
    Strings are byte strings in PHP; here each byte is one `char`. */
module PhpStrings {

  /* ---------------------------------------------------------------- trim */

  /** The characters PHP's `trim` strips by default:
      space, tab, line feed, carriage return, NUL and vertical tab. */
  predicate IsTrimChar(c: char) {
    c == ' ' || c == '\t' || c == '\n' || c == '\r' || c as int == 0 || c as int == 11
  }

  predicate AllTrimChars(s: string) {
    forall i :: 0 <= i < |s| ==> IsTrimChar(s[i])
  }

  /** `ltrim`: the longest suffix of `s` that does not start with a trim character. */
  function TrimLeft(s: string): (r: string)
    ensures |r| <= |s| && r == s[|s| - |r|..]
    ensures AllTrimChars(s[..|s| - |r|])
    ensures r != [] ==> !IsTrimChar(r[0])
  {
    if s != [] && IsTrimChar(s[0]) then TrimLeft(s[1..]) else s
  }

  /** `rtrim`: the longest prefix of `s` that does not end with a trim character. */
  function TrimRight(s: string): (r: string)
    ensures |r| <= |s| && r == s[..|r|]
    ensures AllTrimChars(s[|r|..])
    ensures r != [] ==> !IsTrimChar(r[|r| - 1])
  {
    if s != [] && IsTrimChar(s[|s| - 1]) then TrimRight(s[..|s| - 1]) else s
  }

  function Trim(s: string): string {
    TrimRight(TrimLeft(s))
  }

  /** `'' === trim($s)` holds exactly when every character of `s` is one
      that `trim` strips. */
  lemma TrimEmptyIffBlank(s: string)
    ensures Trim(s) == [] <==> AllTrimChars(s)
  {
    var l := TrimLeft(s);
    if l != [] {
      assert !IsTrimChar(l[0]) && l[0] == s[|s| - |l|];
    } else {
      assert s[..|s|] == s;
    }
  }

  /* ------------------------------------------------------ explode/implode */

  /** `sep` occurs in `s` starting at position `i`. */
  predicate OccursAt(s: string, sep: string, i: int) {
    0 <= i && i + |sep| <= |s| && s[i..i + |sep|] == sep
  }

  predicate SepFree(s: string, sep: string) {
    forall i :: 0 <= i <= |s| ==> !OccursAt(s, sep, i)
  }

  /** The first position at or after `from` where `sep` occurs, or -1. */
  function FindFrom(s: string, sep: string, from: nat): (r: int)
    requires from <= |s|
    ensures r == -1 || (from <= r && OccursAt(s, sep, r))
    ensures forall j :: from <= j && (r == -1 || j < r) ==> !OccursAt(s, sep, j)
    decreases |s| - from
  {
    if from + |sep| > |s| then -1
    else if s[from..from + |sep|] == sep then from
    else if from == |s| then -1
    else FindFrom(s, sep, from + 1)
  }

  /** `implode($sep, $pieces)`. */
  function Implode(pieces: seq<string>, sep: string): string
    decreases |pieces|
  {
    if pieces == [] then ""
    else if |pieces| == 1 then pieces[0]
    else pieces[0] + sep + Implode(pieces[1..], sep)
  }

  /** `explode($sep, $s)`: the pieces of `s` between the left-to-right,
      non-overlapping occurrences of `sep`. Gluing them back with `sep`
      gives `s`, no piece contains `sep`, and every piece but the last ends
      where the first occurrence of `sep` in the rest of the string begins. */
  function Explode(s: string, sep: string): (r: seq<string>)
    requires |sep| > 0
    ensures |r| >= 1
    ensures Implode(r, sep) == s
    ensures forall i :: 0 <= i < |r| ==> SepFree(r[i], sep)
    ensures |r| == 1 <==> SepFree(s, sep)
    ensures |r| > 1 ==> OccursAt(s, sep, |r[0]|) && forall j :: 0 <= j < |r[0]| ==> !OccursAt(s, sep, j)
    ensures forall k :: 0 <= k < |r| - 1 ==> forall j :: 0 <= j < |r[k]| ==> !OccursAt(Implode(r[k..], sep), sep, j)
    decreases |s|
  {
    var i := FindFrom(s, sep, 0);
    if i < 0 then [s]
    else
      var head := s[..i];
      var tail := Explode(s[i + |sep|..], sep);
      FirstOccurrenceSplits(s, sep, i);
      var r := [head] + tail;
      assert r[1..] == tail && r[0..] == r;
      assert forall k :: 1 <= k < |r| ==> r[k..] == tail[k - 1..];
      r
  }

  /** `explode` cuts at the first occurrence of the separator and goes on
      with what follows it; a string without the separator is one piece. */
  lemma ExplodeCut(s: string, sep: string, i: int)
    requires |sep| > 0 && 0 <= i <= |s|
    requires OccursAt(s, sep, i) && forall j :: 0 <= j < i ==> !OccursAt(s, sep, j)
    ensures Explode(s, sep) == [s[..i]] + Explode(s[i + |sep|..], sep)
  {
    assert FindFrom(s, sep, 0) == i;
  }

  /** Overlapping occurrences split left to right: with the separator
      "::", "a::x:::b" gives "a", "x" and ":b", not "a", "x:" and "b". */
  lemma ExplodeOverlapping(a: char, x: char, b: char, c: char)
    requires a != c && x != c && b != c
    ensures Explode([a, c, c, x, c, c, c, b], [c, c]) == [[a], [x], [c, b]]
  {
    var sep := [c, c];
    var s := [a, c, c, x, c, c, c, b];
    assert s[..1] == [a] && s[1..3] == sep && s[0..2][0] == a;
    assert s[3..] == [x, c, c, c, b];
    ExplodeCut(s, sep, 1);
    ExplodeOverlappingTail(x, b, c);
  }

  /** The rest after the first cut: "x:::b" gives "x" and ":b". */
  lemma ExplodeOverlappingTail(x: char, b: char, c: char)
    requires x != c && b != c
    ensures Explode([x, c, c, c, b], [c, c]) == [[x], [c, b]]
  {
    var sep := [c, c];
    var t := [x, c, c, c, b];
    assert t[..1] == [x] && t[1..3] == sep && t[0..2][0] == x;
    assert t[3..] == [c, b];
    ExplodeCut(t, sep, 1);
    ExplodeOverlappingLast(b, c);
  }

  /** The last piece ":b" holds no "::", so it stays whole. */
  lemma ExplodeOverlappingLast(b: char, c: char)
    requires b != c
    ensures Explode([c, b], [c, c]) == [[c, b]]
  {
    var u := [c, b];
    assert SepFree(u, [c, c]) by {
      assert u[0..2][1] == b;
    }
  }

  /** Cutting `s` at the first occurrence of `sep` leaves a separator-free
      head, and `s` is the head, the separator and the rest. */
  lemma FirstOccurrenceSplits(s: string, sep: string, i: int)
    requires |sep| > 0 && OccursAt(s, sep, i)
    requires forall j :: 0 <= j < i ==> !OccursAt(s, sep, j)
    ensures SepFree(s[..i], sep) && !SepFree(s, sep)
    ensures s == s[..i] + sep + s[i + |sep|..]
  {
    PrefixBeforeOccurrence(s, sep, i);
    assert s == s[..i] + s[i..i + |sep|] + s[i + |sep|..];
  }

  /** The part of `s` before its first occurrence of `sep` is free of `sep`. */
  lemma PrefixBeforeOccurrence(s: string, sep: string, i: int)
    requires |sep| > 0 && 0 <= i <= |s|
    requires forall j :: 0 <= j < i ==> !OccursAt(s, sep, j)
    ensures SepFree(s[..i], sep)
  {
    var head := s[..i];
    forall j | 0 <= j <= |head| ensures !OccursAt(head, sep, j) {
      if j + |sep| <= |head| {
        assert head[j..j + |sep|] == s[j..j + |sep|];
        assert !OccursAt(s, sep, j);
      }
    }
  }

  /* ----------------------------------------------------------- strtolower */

  function LowerChar(c: char): char {
    if 'A' <= c <= 'Z' then (c as int + 32) as char else c
  }

  /** `strtolower`, which since PHP 8.2 folds ASCII letters only. */
  function ToLower(s: string): (r: string)
    ensures |r| == |s|
  {
    seq(|s|, i requires 0 <= i < |s| => LowerChar(s[i]))
  }

  /* --------------------------------------------------------------- strcmp */

  /** The sign of `strcmp($a, $b)`: byte-wise lexicographic comparison in
      which a proper prefix sorts first. */
  function Strcmp(a: string, b: string): (r: int)
    ensures -1 <= r <= 1
    ensures r == 0 <==> a == b
  {
    if a == [] && b == [] then 0
    else if a == [] then -1
    else if b == [] then 1
    else if a[0] < b[0] then -1
    else if a[0] > b[0] then 1
    else
      var r := Strcmp(a[1..], b[1..]);
      assert a == [a[0]] + a[1..] && b == [b[0]] + b[1..];
      r
  }

  lemma {:induction false} StrcmpAntisymmetric(a: string, b: string)
    ensures Strcmp(a, b) == -Strcmp(b, a)
    decreases |a|
  {
    if a != [] && b != [] && a[0] == b[0] {
      StrcmpAntisymmetric(a[1..], b[1..]);
    }
  }

  lemma {:induction false} StrcmpTransitive(a: string, b: string, c: string)
    requires Strcmp(a, b) <= 0 && Strcmp(b, c) <= 0
    ensures Strcmp(a, c) <= 0
    decreases |a|
  {
    if a != [] && b != [] && c != [] && a[0] == b[0] && b[0] == c[0] {
      StrcmpTransitive(a[1..], b[1..], c[1..]);
    }
  }

  /* ------------------------------------------------- integers and strings */

  /** The range of PHP's 64-bit `int`. */
  const PhpIntMin: int := -0x8000_0000_0000_0000
  const PhpIntMax: int := 0x7FFF_FFFF_FFFF_FFFF

  predicate IsDigit(c: char) {
    '0' <= c <= '9'
  }

  predicate AllDigits(s: string) {
    forall i :: 0 <= i < |s| ==> IsDigit(s[i])
  }

  function DigitChar(d: nat): char
    requires d < 10
  {
    ('0' as int + d) as char
  }

  function DigitValue(c: char): nat
    requires IsDigit(c)
  {
    c as int - '0' as int
  }

  /** The value of a string of decimal digits. */
  function ParseDigits(s: string): nat
    requires AllDigits(s)
    decreases |s|
  {
    if s == [] then 0 else ParseDigits(s[..|s| - 1]) * 10 + DigitValue(s[|s| - 1])
  }

  /** The decimal digits of a natural number, without leading zeros. */
  function Digits(n: nat): (r: string)
    ensures |r| >= 1 && AllDigits(r)
    decreases n
  {
    if n < 10 then [DigitChar(n)] else Digits(n / 10) + [DigitChar(n % 10)]
  }

  /** `(string)$n` for an integer `n`. */
  function Decimal(n: int): string {
    if n < 0 then "-" + Digits(-n) else Digits(n)
  }

  /** The strings PHP turns into integer array keys: "0", or an optional
      minus sign followed by a non-zero digit and more digits, whose value
      fits in a PHP `int`. "-0", "007", "+1", " 1" and "1.0" stay strings. */
  predicate IsIntegerKeyString(s: string) {
    || s == "0"
    || (|s| >= 1 && '1' <= s[0] <= '9' && AllDigits(s) && ParseDigits(s) <= PhpIntMax)
    || (|s| >= 2 && s[0] == '-' && '1' <= s[1] <= '9' && AllDigits(s[1..])
        && ParseDigits(s[1..]) <= -PhpIntMin)
  }

  function ParseIntegerKey(s: string): int
    requires IsIntegerKeyString(s)
  {
    if s[0] == '-' then -(ParseDigits(s[1..]) as int) else ParseDigits(s)
  }

  lemma {:induction false} ParseDigitsOfDigits(n: nat)
    ensures ParseDigits(Digits(n)) == n
    decreases n
  {
    if n >= 10 {
      ParseDigitsOfDigits(n / 10);
      var d := Digits(n);
      assert d[..|d| - 1] == Digits(n / 10);
    }
  }

  lemma {:induction false} DigitsLeadingChar(n: nat)
    ensures n >= 1 ==> '1' <= Digits(n)[0] <= '9'
    ensures n == 0 ==> Digits(n) == "0"
    decreases n
  {
    if n >= 10 {
      DigitsLeadingChar(n / 10);
    }
  }

  lemma {:induction false} ParseDigitsPositive(s: string)
    requires AllDigits(s) && |s| >= 1 && s[0] != '0'
    ensures ParseDigits(s) >= 1
    decreases |s|
  {
    if |s| > 1 {
      ParseDigitsPositive(s[..|s| - 1]);
    }
  }

  lemma {:induction false} DigitsOfParseDigits(s: string)
    requires AllDigits(s) && |s| >= 1 && s[0] != '0'
    ensures Digits(ParseDigits(s)) == s
    decreases |s|
  {
    var init := s[..|s| - 1];
    var d := DigitValue(s[|s| - 1]);
    if init == [] {
      assert s == [s[0]];
    } else {
      ParseDigitsPositive(init);
      DigitsOfParseDigits(init);
      var n := ParseDigits(s);
      assert n == ParseDigits(init) * 10 + d;
      assert n / 10 == ParseDigits(init) && n % 10 == d;
      assert s == init + [s[|s| - 1]];
    }
  }

  /** Every PHP `int` printed in decimal is an integer key string that
      parses back to the same `int`. */
  lemma DecimalIsIntegerKey(n: int)
    requires PhpIntMin <= n <= PhpIntMax
    ensures IsIntegerKeyString(Decimal(n))
    ensures ParseIntegerKey(Decimal(n)) == n
  {
    DigitsLeadingChar(if n < 0 then -n else n);
    if n < 0 {
      ParseDigitsOfDigits(-n);
      assert Decimal(n)[1..] == Digits(-n);
    } else {
      ParseDigitsOfDigits(n);
    }
  }

  /** Conversely, an integer key string is the decimal form of its value. */
  lemma IntegerKeyIsDecimal(s: string)
    requires IsIntegerKeyString(s)
    ensures Decimal(ParseIntegerKey(s)) == s
  {
    if s == "0" {
    } else if s[0] == '-' {
      DigitsOfParseDigits(s[1..]);
      ParseDigitsPositive(s[1..]);
      assert s == "-" + s[1..];
    } else {
      DigitsOfParseDigits(s);
    }
  }
}

=== FILE: tree.dfy ===
/** Whole-array operations of `Arrays`: `flatten`, `count` and
    `getParentNodesKey`. */
module Tree {
  import opened Wrappers
  import opened Values
  import opened Seqs

  /* --------------------------------------------------------------- flatten */

  /** The leaves under one entry: a non-array value is its own single
      leaf, an array value contributes the leaves of its entries. */
  function FlattenEntry(e: Entry): (r: seq<Value>)
    ensures forall i :: 0 <= i < |r| ==> !r[i].Arr?
    ensures !e.val.Arr? ==> r == [e.val]
    decreases e, 1
  {
    if e.val.Arr? then FlattenEntries(e.val.a.entries) else [e.val]
  }

  function FlattenEntries(es: seq<Entry>): (r: seq<Value>)
    ensures forall i :: 0 <= i < |r| ==> !r[i].Arr?
    decreases es, 0
  {
    if es == [] then [] else FlattenEntry(es[0]) + FlattenEntries(es[1..])
  }

  function FlattenValue(v: Value): (r: seq<Value>)
    ensures !v.Arr? ==> r == [v]
  {
    if v.Arr? then FlattenEntries(v.a.entries) else [v]
  }

  /** `Arrays::flatten`: every non-array value of the nested array, depth
      first in insertion order, keys dropped. Objects and nulls are leaves;
      an empty nested array contributes nothing. */
  function Flatten(a: PhpArray): (r: seq<Value>)
    ensures forall i :: 0 <= i < |r| ==> !r[i].Arr?
  {
    FlattenEntries(a.entries)
  }

  lemma {:induction false} FlattenEntriesConcat(xs: seq<Entry>, ys: seq<Entry>)
    ensures FlattenEntries(xs + ys) == FlattenEntries(xs) + FlattenEntries(ys)
    decreases |xs|
  {
    if xs == [] {
      assert xs + ys == ys;
    } else {
      FlattenEntriesConcat(xs[1..], ys);
      assert (xs + ys)[0] == xs[0] && (xs + ys)[1..] == xs[1..] + ys;
    }
  }

  lemma FlattenSingle(e: Entry)
    ensures FlattenEntries([e]) == FlattenEntry(e) == FlattenValue(e.val)
  {
    assert [e][1..] == [];
  }

  /** The leaves of an array are those of the entries before position `i`,
      those of the entry at `i`, and those of the entries after it. */
  lemma FlattenAt(es: seq<Entry>, i: int)
    requires 0 <= i < |es|
    ensures FlattenEntries(es) == FlattenEntries(es[..i]) + FlattenValue(es[i].val) + FlattenEntries(es[i + 1..])
  {
    SplitAt(es, i);
    FlattenEntriesConcat(es[..i] + [es[i]], es[i + 1..]);
    FlattenEntriesConcat(es[..i], [es[i]]);
    FlattenSingle(es[i]);
  }

  /** Replacing one entry's value changes the leaves by exactly the leaves
      of the old and the new value, in place. */
  lemma FlattenReplace(es: seq<Entry>, i: int, e: Entry)
    requires 0 <= i < |es|
    ensures FlattenEntries(es[i := e]) == FlattenEntries(es[..i]) + FlattenValue(e.val) + FlattenEntries(es[i + 1..])
    ensures |FlattenEntries(es[i := e])| + |FlattenValue(es[i].val)|
         == |FlattenEntries(es)| + |FlattenValue(e.val)|
  {
    UpdateAt(es, i, e);
    FlattenAt(es[i := e], i);
    FlattenAt(es, i);
  }

  /** Removing one entry drops exactly its value's leaves. */
  lemma FlattenRemove(es: seq<Entry>, i: int)
    requires 0 <= i < |es|
    ensures |FlattenEntries(es[..i] + es[i + 1..])| + |FlattenValue(es[i].val)| == |FlattenEntries(es)|
  {
    FlattenAt(es, i);
    FlattenEntriesConcat(es[..i], es[i + 1..]);
  }

  /* ----------------------------------------------------------------- count */

  /** `Arrays::count`: the loop adds 1 per non-array value and recurses
      into array values, so it counts exactly the leaves `flatten` lists. */
  method Count(a: PhpArray) returns (n: nat)
    ensures n == |Flatten(a)|
    decreases a
  {
    n := 0;
    if a.entries == [] {
      return;
    }
    var i := 0;
    while i < |a.entries|
      invariant 0 <= i <= |a.entries|
      invariant n == |FlattenEntries(a.entries[..i])|
    {
      var v := a.entries[i].val;
      FlattenEntriesConcat(a.entries[..i], [a.entries[i]]);
      assert a.entries[..i + 1] == a.entries[..i] + [a.entries[i]];
      if v.Arr? {
        var c := Count(v.a);
        n := n + c;
      } else {
        n := n + 1;
      }
      i := i + 1;
    }
    assert a.entries[..i] == a.entries;
  }

  /* ----------------------------------------------------- getParentNodesKey */

  /** The next free index of an array into which `ks` were stored in order,
      starting from `[]`. */
  function NextFreeOf(ks: seq<Key>): (r: int)
    ensures r >= 0
    ensures forall i :: 0 <= i < |ks| && ks[i].IK? ==> ks[i].n < r
    decreases |ks|
  {
    if ks == [] then 0 else NextFreeAfter(NextFreeOf(ks[..|ks| - 1]), ks[|ks| - 1])
  }

  /** The skeleton entry of an array-valued entry. */
  function ParentEntry(e: Entry): (r: Entry)
    requires e.val.Arr?
    ensures r.key == e.key && r.val.Arr?
    decreases e, 1
  {
    Entry(e.key, Arr(Skeleton(ParentEntries(e.val.a.entries))))
  }

  /** The array-valued entries of `es`, each mapped to its own skeleton. */
  function ParentEntries(es: seq<Entry>): (r: seq<Entry>)
    ensures forall i :: 0 <= i < |r| ==> r[i].val.Arr?
    decreases es, 0
  {
    if es == [] then []
    else if es[0].val.Arr? then [ParentEntry(es[0])] + ParentEntries(es[1..])
    else ParentEntries(es[1..])
  }

  /** The array `$result` built by storing `es` in order into `[]`. */
  function Skeleton(es: seq<Entry>): PhpArray {
    PhpArray(es, NextFreeOf(KeysOf(es)))
  }

  /** `Arrays::getParentNodesKey`: `$result[$key] = ...` for each array-valued
      entry in order, recursively; scalar entries are dropped. */
  function ParentNodesKey(a: PhpArray): (r: PhpArray)
    ensures forall i :: 0 <= i < |r.entries| ==> r.entries[i].val.Arr?
  {
    Skeleton(ParentEntries(a.entries))
  }

  /** No leaf survives `getParentNodesKey`: its result flattens to nothing. */
  lemma ParentNodesKeyHasNoLeaves(a: PhpArray)
    ensures Flatten(ParentNodesKey(a)) == []
  {
    SkeletonHasNoLeaves(a.entries);
  }

  lemma {:induction false} SkeletonHasNoLeaves(es: seq<Entry>)
    ensures FlattenEntries(ParentEntries(es)) == []
    decreases es, 0
  {
    if es != [] {
      SkeletonHasNoLeaves(es[1..]);
      if es[0].val.Arr? {
        SkeletonEntryHasNoLeaves(es[0]);
        var r := ParentEntries(es);
        assert r[0] == ParentEntry(es[0]) && r[1..] == ParentEntries(es[1..]);
      }
    }
  }

  lemma {:induction false} SkeletonEntryHasNoLeaves(e: Entry)
    requires e.val.Arr?
    ensures FlattenEntry(ParentEntry(e)) == []
    decreases e, 1
  {
    SkeletonHasNoLeaves(e.val.a.entries);
  }

  predicate UniqueKeys(es: seq<Entry>) {
    forall i, j :: 0 <= i < j < |es| ==> es[i].key != es[j].key
  }

  /** With unique keys, a key is in the skeleton exactly when it holds an
      array in the input, and then it maps to that array's skeleton. */
  lemma {:induction false} ParentEntriesFind(es: seq<Entry>, k: Key)
    requires UniqueKeys(es)
    ensures var i := Find(es, k); var j := Find(ParentEntries(es), k);
      && (j >= 0 <==> i >= 0 && es[i].val.Arr?)
      && (j >= 0 ==> ParentEntries(es)[j].val == Arr(ParentNodesKey(es[i].val.a)))
    decreases |es|
  {
    if es != [] {
      UniqueKeysTail(es);
      ParentEntriesFind(es[1..], k);
      SkeletonFindsStep(es, k);
    }
  }

  /** What `ParentEntriesFind` states about `es` and `k`. */
  predicate SkeletonFinds(es: seq<Entry>, k: Key) {
    var i := Find(es, k); var j := Find(ParentEntries(es), k);
    && (j >= 0 <==> i >= 0 && es[i].val.Arr?)
    && (j >= 0 ==> ParentEntries(es)[j].val == Arr(ParentNodesKey(es[i].val.a)))
  }

  /** The tail of a list with unique keys has unique keys, none of them the head's. */
  lemma UniqueKeysTail(es: seq<Entry>)
    requires es != [] && UniqueKeys(es)
    ensures UniqueKeys(es[1..]) && Find(es[1..], es[0].key) < 0
  {
    var t := es[1..];
    forall j | 0 <= j < |t| ensures t[j].key != es[0].key {
      assert t[j] == es[j + 1];
    }
  }

  /** One step of `ParentEntriesFind`: the statement for the tail carries over
      to the whole list unless the head repeats the key. */
  lemma SkeletonFindsStep(es: seq<Entry>, k: Key)
    requires es != [] && SkeletonFinds(es[1..], k)
    requires es[0].key == k ==> Find(es[1..], k) < 0
    ensures SkeletonFinds(es, k)
  {
    var t, r := es[1..], ParentEntries(es);
    var rt := ParentEntries(t);
    if es[0].val.Arr? {
      assert r[0] == ParentEntry(es[0]) && r[1..] == rt;
    } else {
      assert r == rt;
    }
    if es[0].key != k {
      var it, jt := Find(t, k), Find(rt, k);
      if it >= 0 {
        assert es[it + 1] == t[it];
      }
      if es[0].val.Arr? && jt >= 0 {
        assert r[jt + 1] == rt[jt];
      }
    }
  }

  lemma {:induction false} ParentEntriesKeys(es: seq<Entry>)
    ensures IsSubsequence(KeysOf(ParentEntries(es)), KeysOf(es))
    ensures forall k :: k in KeysOf(ParentEntries(es)) ==> k in KeysOf(es)
    decreases |es|
  {
    if es != [] {
      ParentEntriesKeys(es[1..]);
      var ks := KeysOf(es);
      assert ks[1..] == KeysOf(es[1..]);
      var r := ParentEntries(es);
      if es[0].val.Arr? {
        assert KeysOf(r) == [es[0].key] + KeysOf(ParentEntries(es[1..]));
      } else {
        SubsequenceOfTail(KeysOf(r), ks);
      }
    }
  }

  /** The skeleton keeps, in their original order, exactly the keys that
      hold arrays, each mapped to the skeleton of its array. */
  lemma ParentNodesKeyLookup(a: PhpArray, k: Key)
    requires TopWellFormed(a)
    ensures var r := ParentNodesKey(a);
      && (Lookup(r, k).Some? <==> Lookup(a, k).Some? && Lookup(a, k).value.Arr?)
      && (Lookup(r, k).Some? ==> Lookup(r, k).value == Arr(ParentNodesKey(Lookup(a, k).value.a)))
      && IsSubsequence(KeysOf(r.entries), KeysOf(a.entries))
  {
    ParentEntriesFind(a.entries, k);
    ParentEntriesKeys(a.entries);
  }

  /** Taking the skeleton of a skeleton changes nothing. */
  lemma ParentNodesKeyIdempotent(a: PhpArray)
    ensures ParentNodesKey(ParentNodesKey(a)) == ParentNodesKey(a)
  {
    ParentEntriesIdempotent(a.entries);
  }

  lemma {:induction false} ParentEntriesIdempotent(es: seq<Entry>)
    ensures ParentEntries(ParentEntries(es)) == ParentEntries(es)
    decreases es, 0
  {
    if es != [] {
      ParentEntriesIdempotent(es[1..]);
      if es[0].val.Arr? {
        ParentEntryIdempotent(es[0]);
        var r := [ParentEntry(es[0])] + ParentEntries(es[1..]);
        assert r[0] == ParentEntry(es[0]) && r[1..] == ParentEntries(es[1..]);
      }
    }
  }

  lemma {:induction false} ParentEntryIdempotent(e: Entry)
    requires e.val.Arr?
    ensures ParentEntry(ParentEntry(e)) == ParentEntry(e)
    decreases e, 1
  {
    ParentEntriesIdempotent(e.val.a.entries);
  }
}

=== FILE: values.dfy ===
/** PHP values as the core sees them, and the ordered hash map that PHP
    calls an array: an insertion-ordered sequence of (key, value) entries
    together with the "next free" integer index that `$a[] = $v` uses. */
module Values {
  import opened Wrappers
  import opened PhpStrings

  /** An array key: PHP keys are integers or strings. */
  datatype Key = IK(n: int) | SK(s: string)

  /** A PHP value. `Obj` carries its class name, the set of every class
      and interface name it is an instance of (standing in for PHP's class
      table), and its properties. Floats and resources are not modelled. */
  datatype Value =
    | Null
    | Bool(b: bool)
    | Int(i: int)
    | Str(s: string)
    | Obj(cls: string, types: set<string>, fields: map<string, Value>)
    | Arr(a: PhpArray)

  datatype Entry = Entry(key: Key, val: Value)

  datatype PhpArray = PhpArray(entries: seq<Entry>, nextFree: int)

  /** The exceptions the core raises, one per message in the source. */
  datatype Error =
    | EmptyNeedle                  // RuntimeException 'Empty needle'
    | EmptyHaystack                // RuntimeException 'Empty haystack'
    | InvalidKey(key: Key)         // RuntimeException "Invalid key: $key"
    | TypeError                    // a non-array passed where `array` is declared
    | EmptyArrayToSort             // RuntimeException 'Empty array to sort'
    | InvalidKeyDirectionPair      // RuntimeException 'Invalid key-direction pair'
    | EmptyObjectArrayToSort       // RuntimeException 'Empty object array to sort'
    | ElementsMustBeObjects        // RuntimeException 'Array elements must be objects'
    | InvalidPropertyDirectionPair // LogicException 'Invalid property-direction pair'
    | PropertyNotFound(name: string)      // RuntimeException "Property not found: ..."
    | CollectionKeyNotFound(name: string) // RuntimeException "Could not find collection name/key: ..."
    | TypeMismatch(allowed: string)       // LogicException '$value does not match collection allowed type: ...'

  const EmptyArray: PhpArray := PhpArray([], 0)

  /* ------------------------------------------------------------------ keys */

  /** A key in the form PHP stores it: integer-like strings are integers. */
  predicate Normalized(k: Key) {
    k.SK? ==> !IsIntegerKeyString(k.s)
  }

  /** The key PHP actually uses for `$a[$k]`: a string such as "0" or "-12"
      addresses the integer key 0 or -12; every other key is used as is. */
  function Normalize(k: Key): (r: Key)
    ensures Normalized(r)
    ensures Normalized(k) ==> r == k
    ensures r.SK? ==> r == k
  {
    match k
    case IK(_) => k
    case SK(s) => if IsIntegerKeyString(s) then IK(ParseIntegerKey(s)) else k
  }

  /** A key as PHP prints it, e.g. in "Invalid key: $key". */
  function KeyString(k: Key): string {
    match k
    case IK(n) => Decimal(n)
    case SK(s) => s
  }

  /** Addressing an array with the printed form of a stored key reaches
      that key again: in particular "0" addresses the integer key 0. */
  lemma NormalizeKeyString(k: Key)
    requires Normalized(k)
    requires k.IK? ==> PhpIntMin <= k.n <= PhpIntMax
    ensures Normalize(SK(KeyString(k))) == k
  {
    if k.IK? {
      DecimalIsIntegerKey(k.n);
    }
  }

  /* ----------------------------------------------------------- array access */

  function KeysOf(es: seq<Entry>): (r: seq<Key>)
    ensures |r| == |es|
    ensures forall i :: 0 <= i < |es| ==> r[i] == es[i].key
  {
    seq(|es|, i requires 0 <= i < |es| => es[i].key)
  }

  function ValuesOf(es: seq<Entry>): (r: seq<Value>)
    ensures |r| == |es|
    ensures forall i :: 0 <= i < |es| ==> r[i] == es[i].val
  {
    seq(|es|, i requires 0 <= i < |es| => es[i].val)
  }

  /** The index of the entry with key `k`, or -1 when there is none. */
  function Find(es: seq<Entry>, k: Key): (i: int)
    ensures -1 <= i < |es|
    ensures i >= 0 ==> es[i].key == k && forall j :: 0 <= j < i ==> es[j].key != k
    ensures i < 0 <==> k !in KeysOf(es)
    decreases |es|
  {
    if es == [] then -1
    else if es[0].key == k then 0
    else
      var j := Find(es[1..], k);
      assert KeysOf(es) == [es[0].key] + KeysOf(es[1..]);
      if j < 0 then -1 else j + 1
  }

  /** `array_key_exists` / `$a[$k]` for an already normalised key. */
  function Lookup(a: PhpArray, k: Key): (r: Option<Value>)
    ensures r.Some? <==> k in KeysOf(a.entries)
  {
    var i := Find(a.entries, k);
    if i < 0 then None else Some(a.entries[i].val)
  }

  /** What `isset($a[$k])` sees: the value at `k` when it is present and
      not null. */
  function Slot(a: PhpArray, k: Key): (r: Option<Value>)
    ensures r.Some? <==> Lookup(a, k).Some? && Lookup(a, k).value != Null
    ensures r.Some? ==> r == Lookup(a, k)
  {
    match Lookup(a, k)
    case Some(v) => if v == Null then None else Some(v)
    case None => None
  }

  /** The next free index after storing key `k`: storing an integer key at
      or beyond it moves it past that key. */
  function NextFreeAfter(nextFree: int, k: Key): (r: int)
    ensures r >= nextFree
    ensures k.IK? ==> r > k.n
  {
    if k.IK? && k.n >= nextFree then k.n + 1 else nextFree
  }

  /** The keys after storing `k`: unchanged when `k` is present, otherwise
      `k` is appended at the end. */
  function KeysAfterStore(ks: seq<Key>, k: Key): seq<Key> {
    if k in ks then ks else ks + [k]
  }

  /** `$a[$k] = $v` for a normalised key: an existing key keeps its position
      and gets the new value; a new key is appended. */
  function Store(a: PhpArray, k: Key, v: Value): (r: PhpArray)
    ensures Lookup(r, k) == Some(v)
    ensures forall k' :: k' != k ==> Lookup(r, k') == Lookup(a, k')
    ensures KeysOf(r.entries) == KeysAfterStore(KeysOf(a.entries), k)
    ensures r.entries != []
  {
    var i := Find(a.entries, k);
    if i >= 0 then
      var es := a.entries[i := Entry(k, v)];
      assert KeysOf(es) == KeysOf(a.entries);
      forall k' ensures Find(es, k') == Find(a.entries, k') {
        FindSameKeys(es, a.entries, k');
      }
      PhpArray(es, a.nextFree)
    else
      var es := a.entries + [Entry(k, v)];
      FindAppend(a.entries, Entry(k, v));
      PhpArray(es, NextFreeAfter(a.nextFree, k))
  }

  /** `Find` looks only at the keys. */
  lemma {:induction false} FindSameKeys(es: seq<Entry>, fs: seq<Entry>, k: Key)
    requires KeysOf(es) == KeysOf(fs)
    ensures Find(es, k) == Find(fs, k)
  {
    assert forall p :: 0 <= p < |es| ==> es[p].key == KeysOf(es)[p] == KeysOf(fs)[p] == fs[p].key;
  }

  /** Appending an entry with a new key: that key is found at the end, and
      every other key where it was. */
  lemma {:induction false} FindAppend(es: seq<Entry>, e: Entry)
    requires e.key !in KeysOf(es)
    ensures KeysOf(es + [e]) == KeysOf(es) + [e.key]
    ensures Find(es + [e], e.key) == |es|
    ensures forall k' :: k' != e.key ==> Find(es + [e], k') == Find(es, k')
  {
    var fs := es + [e];
    assert forall j :: 0 <= j < |es| ==> fs[j] == es[j];
    assert forall j :: 0 <= j < |es| ==> es[j].key != e.key by {
      forall j | 0 <= j < |es| ensures es[j].key != e.key {
        assert KeysOf(es)[j] == es[j].key;
      }
    }
    FindFirst(fs, e.key, |es|);
    forall k' | k' != e.key ensures Find(fs, k') == Find(es, k') {
      FindAppendOther(es, e, k');
    }
  }

  lemma FindAppendOther(es: seq<Entry>, e: Entry, k: Key)
    requires k != e.key
    ensures Find(es + [e], k) == Find(es, k)
  {
    var fs := es + [e];
    assert forall j :: 0 <= j < |es| ==> fs[j] == es[j];
    var f := Find(es, k);
    if f >= 0 {
      FindFirst(fs, k, f);
    } else {
      assert KeysOf(fs) == KeysOf(es) + [e.key];
    }
  }

  /** Storing at an absent key appends one entry. */
  lemma StoreNew(a: PhpArray, k: Key, v: Value)
    requires Find(a.entries, k) < 0
    ensures Store(a, k, v) == PhpArray(a.entries + [Entry(k, v)], NextFreeAfter(a.nextFree, k))
  {
  }

  /** Storing at a present key replaces that one entry in place. */
  lemma StoreExisting(a: PhpArray, k: Key, v: Value)
    requires Find(a.entries, k) >= 0
    ensures Store(a, k, v) == PhpArray(a.entries[Find(a.entries, k) := Entry(k, v)], a.nextFree)
  {
  }

  /** `$a[] = $v`: store at the next free integer index. */
  function Push(a: PhpArray, v: Value): PhpArray {
    Store(a, IK(a.nextFree), v)
  }

  /** `unset($a[$k])`: the entry with key `k` is removed, the others keep
      their order, and the next free index is not rewound. */
  function Unset(a: PhpArray, k: Key): (r: PhpArray)
    ensures r.nextFree == a.nextFree
    ensures Find(a.entries, k) < 0 ==> r == a
    ensures Find(a.entries, k) >= 0 ==>
      var i := Find(a.entries, k); r.entries == a.entries[..i] + a.entries[i + 1..]
  {
    var i := Find(a.entries, k);
    if i < 0 then a else PhpArray(a.entries[..i] + a.entries[i + 1..], a.nextFree)
  }

  /** The integer indices 0 .. |vs|-1 paired with `vs`. */
  function ListEntries(vs: seq<Value>): (r: seq<Entry>)
    ensures |r| == |vs|
    ensures forall i :: 0 <= i < |vs| ==> r[i] == Entry(IK(i), vs[i])
  {
    seq(|vs|, i requires 0 <= i < |vs| => Entry(IK(i), vs[i]))
  }

  /** A PHP list literal `[v0, v1, ...]`. */
  function ListOf(vs: seq<Value>): PhpArray {
    PhpArray(ListEntries(vs), |vs|)
  }

  /* ------------------------------------------------------- well-formedness */

  /** What every array built by PHP satisfies at its top level: keys are
      unique and normalised, and every integer key is below the next free
      index, which is never negative. */
  predicate TopWellFormed(a: PhpArray) {
    && a.nextFree >= 0
    && (forall i, j :: 0 <= i < j < |a.entries| ==> a.entries[i].key != a.entries[j].key)
    && (forall i :: 0 <= i < |a.entries| ==> Normalized(a.entries[i].key))
    && (forall i :: 0 <= i < |a.entries| && a.entries[i].key.IK? ==> a.entries[i].key.n < a.nextFree)
  }

  /** `TopWellFormed` at every nesting level. */
  predicate WellFormed(a: PhpArray)
    decreases a
  {
    TopWellFormed(a) && forall i :: 0 <= i < |a.entries| ==> WellFormedValue(a.entries[i].val)
  }

  predicate WellFormedValue(v: Value)
    decreases v
  {
    v.Arr? ==> WellFormed(v.a)
  }

  /** Storing a normalised key into a top-level well-formed array keeps it
      well-formed. */
  lemma StoreTopWellFormed(a: PhpArray, k: Key, v: Value)
    requires TopWellFormed(a) && Normalized(k)
    ensures TopWellFormed(Store(a, k, v))
  {
    var i := Find(a.entries, k);
    if i >= 0 {
      StoreExisting(a, k, v);
      var es := a.entries[i := Entry(k, v)];
      assert forall p :: 0 <= p < |es| ==> es[p].key == a.entries[p].key;
    } else {
      StoreNew(a, k, v);
      StoreAppendTop(a, Entry(k, v));
    }
  }

  lemma StoreAppendTop(a: PhpArray, e: Entry)
    requires TopWellFormed(a) && Normalized(e.key) && e.key !in KeysOf(a.entries)
    ensures TopWellFormed(PhpArray(a.entries + [e], NextFreeAfter(a.nextFree, e.key)))
  {
    var es := a.entries + [e];
    forall p | 0 <= p < |a.entries| ensures es[p] == a.entries[p] && a.entries[p].key != e.key {
      assert KeysOf(a.entries)[p] == a.entries[p].key;
    }
  }

  lemma StoreWellFormed(a: PhpArray, k: Key, v: Value)
    requires WellFormed(a) && Normalized(k) && WellFormedValue(v)
    ensures WellFormed(Store(a, k, v))
  {
    StoreTopWellFormed(a, k, v);
    var r := Store(a, k, v);
    forall i | 0 <= i < |r.entries| ensures WellFormedValue(r.entries[i].val) {
      var key := r.entries[i].key;
      assert key in KeysOf(r.entries);
      assert Find(r.entries, key) == i;
      if key != k {
        assert Lookup(r, key) == Lookup(a, key);
      }
    }
  }

  /** Under well-formedness `$a[] = $v` appends one entry at the next free
      index and moves that index on by one; earlier entries are untouched. */
  lemma PushAppends(a: PhpArray, v: Value)
    requires TopWellFormed(a)
    ensures Push(a, v).entries == a.entries + [Entry(IK(a.nextFree), v)]
    ensures Push(a, v).nextFree == a.nextFree + 1
  {
  }

  lemma ListOfWellFormed(vs: seq<Value>)
    requires forall i :: 0 <= i < |vs| ==> WellFormedValue(vs[i])
    ensures WellFormed(ListOf(vs))
  {
  }

  /** Pushing onto a list literal gives the longer list literal. */
  lemma PushListOf(vs: seq<Value>, v: Value)
    ensures Push(ListOf(vs), v) == ListOf(vs + [v])
  {
    var es := ListEntries(vs);
    assert forall i :: 0 <= i < |es| ==> KeysOf(es)[i] != IK(|vs|);
    assert IK(|vs|) !in KeysOf(es);
    assert Find(es, IK(|vs|)) < 0;
    var longer := ListEntries(vs + [v]);
    assert forall i :: 0 <= i < |longer| ==> longer[i] == (es + [Entry(IK(|vs|), v)])[i];
    assert longer == es + [Entry(IK(|vs|), v)];
  }

  /** In an array with unique keys, the entry found for a key is the one
      holding it. */
  lemma FindUnique(es: seq<Entry>, i: int)
    requires forall p, q :: 0 <= p < q < |es| ==> es[p].key != es[q].key
    requires 0 <= i < |es|
    ensures Find(es, es[i].key) == i
  {
    assert KeysOf(es)[i] == es[i].key;
  }

  lemma UnsetTopWellFormed(a: PhpArray, k: Key)
    requires TopWellFormed(a)
    ensures TopWellFormed(Unset(a, k))
    ensures forall p :: 0 <= p < |Unset(a, k).entries| ==> Unset(a, k).entries[p] in a.entries
  {
    var i := Find(a.entries, k);
    if i >= 0 {
      var r := Unset(a, k);
      forall p | 0 <= p < |r.entries|
        ensures r.entries[p] == a.entries[if p < i then p else p + 1]
      {
        UnsetEntry(a, k, p);
      }
    }
  }

  lemma UnsetWellFormed(a: PhpArray, k: Key)
    requires WellFormed(a)
    ensures WellFormed(Unset(a, k))
  {
    UnsetTopWellFormed(a, k);
    var r := Unset(a, k);
    forall p | 0 <= p < |r.entries| ensures WellFormedValue(r.entries[p].val) {
      assert r.entries[p] in a.entries;
    }
  }

  /** The entries left by `unset` are the old ones with the found entry cut out. */
  lemma UnsetEntry(a: PhpArray, k: Key, p: int)
    requires 0 <= Find(a.entries, k) && 0 <= p < |Unset(a, k).entries|
    ensures var i := Find(a.entries, k);
      Unset(a, k).entries[p] == a.entries[if p < i then p else p + 1]
  {
  }

  /** In a well-formed array the key removed by `unset` is gone. */
  lemma UnsetRemovesKey(a: PhpArray, k: Key)
    requires TopWellFormed(a)
    ensures Lookup(Unset(a, k), k) == None
  {
    var i := Find(a.entries, k);
    var r := Unset(a, k);
    var f := Find(r.entries, k);
    if i >= 0 && f >= 0 {
      UnsetEntry(a, k, f);
    }
  }

  /** The first entry holding `k` is found. */
  lemma FindFirst(es: seq<Entry>, k: Key, f: int)
    requires 0 <= f < |es| && es[f].key == k
    requires forall j :: 0 <= j < f ==> es[j].key != k
    ensures Find(es, k) == f
  {
    assert KeysOf(es)[f] == k;
  }

  /** ... and every other key still maps to its old value. */
  lemma UnsetKeepsOthers(a: PhpArray, k: Key, k': Key)
    requires k' != k
    ensures Lookup(Unset(a, k), k') == Lookup(a, k')
  {
    var i := Find(a.entries, k);
    if i >= 0 {
      var r := Unset(a, k);
      var f := Find(r.entries, k');
      if f >= 0 {
        UnsetKeepsFound(a, k, k', i, f);
        assert Lookup(r, k') == Some(r.entries[f].val);
      } else {
        UnsetKeepsPresent(a, k, k');
      }
    }
  }

  lemma UnsetKeepsPresent(a: PhpArray, k: Key, k': Key)
    requires k' != k
    ensures k' in KeysOf(a.entries) ==> k' in KeysOf(Unset(a, k).entries)
  {
    var i := Find(a.entries, k);
    var j := Find(a.entries, k');
    if i >= 0 && j >= 0 {
      var r := Unset(a, k);
      assert j != i;
      var j' := if j < i then j else j - 1;
      assert |r.entries| == |a.entries| - 1;
      UnsetEntry(a, k, j');
      assert r.entries[j'].key == k';
      assert KeysOf(r.entries)[j'] == k';
    }
  }

  lemma UnsetKeepsFound(a: PhpArray, k: Key, k': Key, i: int, f: int)
    requires k' != k && i == Find(a.entries, k) && i >= 0
    requires f == Find(Unset(a, k).entries, k') && f >= 0
    ensures Find(a.entries, k') == if f < i then f else f + 1
    ensures a.entries[if f < i then f else f + 1] == Unset(a, k).entries[f]
  {
    var es := a.entries;
    UnsetEntry(a, k, f);
    var f' := if f < i then f else f + 1;
    forall j | 0 <= j < f' ensures es[j].key != k' {
      if j < i {
        UnsetEntry(a, k, j);
      } else if j > i {
        UnsetEntry(a, k, j - 1);
      }
    }
    FindFirst(es, k', f');
  }

  /* ------------------------------------------------------- type predicates */

  /** `is_scalar($v)`: int, float, string or bool (never null). */
  predicate IsScalar(v: Value) {
    v.Bool? || v.Int? || v.Str?
  }

  /** `$v instanceof $t`: false for every non-object. */
  predicate InstanceOf(v: Value, t: string) {
    v.Obj? && (t == v.cls || t in v.types)
  }
}

=== FILE: wrappers.dfy ===
/** Failure-compatible result types shared by the whole model.
    PHP exceptions become `Failure` values; `:-` propagates them the way
    an uncaught exception unwinds the PHP call stack. */
module Wrappers {

  datatype Option<+T> = None | Some(value: T) {

    function GetOr(default: T): T {
      match this
      case Some(v) => v
      case None => default
    }
  }

  datatype Result<+T, +E> = Success(value: T) | Failure(error: E) {

    predicate IsFailure() {
      Failure?
    }

    function PropagateFailure<U>(): Result<U, E>
      requires Failure?
    {
      Failure(error)
    }

    function Extract(): T
      requires Success?
    {
      value
    }
  }
}
